=== FILE: README.md ===
# Metaverse builder and repository locator, in Dafny

The Pentaho metaverse is a property graph of data lineage. Analyzers describe
nodes (a transformation, a step, a database field) and labelled links between
them. The builder writes these descriptions into a Blueprints graph store. It
reconciles a description with what is already stored, so that repeated or
forward references do not create duplicates:

- **Resolving a node.** A node is matched to a vertex by its string id. When
  no vertex has that id, and the node's logical id differs from its string
  id, it is matched to some vertex carrying the logical id.
- **Adding a link.** An end that matches nothing gets a new vertex flagged
  *virtual*. A later `addNode` marks it real.
- **Edge ids.** An edge's id is built from the logical ids (or vertex ids) of
  its two ends, and not from its label. A second link between the same pair
  therefore adds nothing, whatever its label.
- **Copying properties.** A node's properties are copied onto its vertex.
  The logical id of a real vertex is protected from a virtual node's.
- **Entity types.** A node of an entity type hangs under an entity-type
  vertex. Every entity-type vertex hangs under one root entity.
- **Deleting a link** also removes the link's virtual vertices.
- **Relabelling a link** removes it and adds it again under the new label.

The repository locator crawls a list of repository file trees depth first. It
hands every visible file to the document processor and can be stopped from
another thread.

The model works on immutable values. A graph is a map of vertices (each a map
of properties) and a map of keyed edges. A builder call is a method from one
graph to an `Outcome`: either the new graph, or the exception it throws
together with the graph as it stood when it threw. The builder does not roll
back, so a call that throws may leave some of its writes behind. For those
states the contracts promise what is kept, not which writes survive: the
store stays well formed and every real vertex stays real; `addNode` and
`addLink` lose no vertex or edge, `addLink` changes no virtual flag, and
`deleteLink` removes only edges and virtual vertices.

Modules, in dependency order:

| module | file | contents |
|---|---|---|
| `Wrappers` | wrappers.dfy | `Option` |
| `Dictionary` | dictionary.dfy | the property keys, node types and link labels the builder uses |
| `PropertyGraph` | property_graph.dfy | the store: vertex and edge ids, values, `Outcome`, and the store's primitive operations |
| `Metaverse` | metaverse.dfy | nodes and links as analyzers hand them over |
| `Identity` | identity.dfy | `getVertexForNode` |
| `PropertyMerge` | property_merge.dfy | `copyNodePropertiesToVertex` |
| `Taxonomy` | taxonomy.dfy | `getEdgeId`, the vertex-level `addLink`, `addEntityType`, `createRootEntity`, `addVertex` |
| `Frames` | frames.dfy | what a call leaves unchanged |
| `Links` | links.dfy | the two node-level `addLink` overloads |
| `Nodes` | nodes.dfy | `addNode`, `updateNode`, `deleteNode` |
| `Unlink` | unlink.dfy | both `deleteLink` methods, `isVirtual`, `updateLinkLabel` |
| `Scenarios` | scenarios.dfy | properties of sequences of builder calls |
| `Locator` | locator.dfy | `RepositoryLocatorRunner.locate` |

`isEntityType`, the dictionary's lookup of entity node types, is a parameter
of the calls that need it. Which of several vertices sharing a logical id the
store returns, and the order in which it lists a vertex's out-edges, are left
open: the model allows any choice. The contracts hold for every choice.

One consequence of the source shows up as a proved property. `addLink` looks
up both ends before it creates either one. A link from a new node to itself
therefore creates the node's vertex for the from end and then tries to
create the same vertex again for the to end. The call always throws
(`Scenarios.SelfLinkOnNewNode`).

## Model

Paths are relative to the repository root.

| member | source | states |
|---|---|---|
| PropertyGraph.AddVertex | src/main/java/com/pentaho/metaverse/impl/MetaverseBuilder.java:169 | The store refuses an id it already holds, changing nothing. Otherwise it adds exactly one empty vertex under that id, or under a fresh made-up id when the id is null, and changes nothing else. |
| PropertyGraph.AddAnonymousEdge | src/main/java/com/pentaho/metaverse/impl/MetaverseBuilder.java:175 | An edge added with a null id gets an id never used before. It carries no properties, and nothing else changes. |
| PropertyGraph.RemoveVertex | src/main/java/com/pentaho/metaverse/impl/MetaverseBuilder.java:355 | Removes exactly the vertex and exactly the edges touching it. The remaining edges are unchanged, and a well-formed store stays well formed. |
| PropertyGraph.RemoveEdge | src/main/java/com/pentaho/metaverse/impl/MetaverseBuilder.java:334 | Removes exactly that edge; vertices and every other edge are unchanged. |
| PropertyGraph.PutEdge | src/main/java/com/pentaho/metaverse/impl/MetaverseBuilder.java:440-441 | Stores the edge under the given key, between two stored vertices; only that key of the edges changes. |
| Identity.Resolve | src/main/java/com/pentaho/metaverse/impl/MetaverseBuilder.java:274-293 | Finds a vertex exactly when the node is resolvable, and the vertex found is a candidate. A candidate is the vertex keyed by the string id when there is one. Otherwise, only when the logical id differs from the string id, it is a vertex carrying the logical id. A null node or null string id finds nothing. |
| Identity.ResolvableIffCandidate | src/main/java/com/pentaho/metaverse/impl/MetaverseBuilder.java:274-293 | A node resolves exactly when a candidate exists. When the vertex keyed by its string id exists, that vertex is the only candidate, so the logical id is never consulted. |
| PropertyMerge.MergeProps | src/main/java/com/pentaho/metaverse/impl/MetaverseBuilder.java:241-264 | The id and virtual keys are never copied, and null values leave the vertex as it was. Every other key overwrites. The logical id overwrites unless the vertex has one, the node is virtual (absent counts as virtual) and the vertex is real (absent counts as real). No key appears that neither side had. |
| PropertyMerge.Copy | src/main/java/com/pentaho/metaverse/impl/MetaverseBuilder.java:239-266 | Throws a cast failure before writing anything exactly when a virtual flag or the vertex's logical id has the wrong type. Otherwise only that vertex changes: every key the node copies now holds the node's value, its virtual flag is its own, and no edge changes. The node comes back with the same id and properties, no longer dirty. |
| PropertyMerge.MergeIdempotent | src/main/java/com/pentaho/metaverse/impl/MetaverseBuilder.java:239-266 | Copying the same node twice leaves the vertex as copying it once did. |
| PropertyMerge.MergeKeepsCasts | src/main/java/com/pentaho/metaverse/impl/MetaverseBuilder.java:242-248 | When a node's logical id is a string or null, a vertex whose reads cast still casts after the node is copied onto it, so a repeated copy cannot throw. |
| Taxonomy.EdgeKey | src/main/java/com/pentaho/metaverse/impl/MetaverseBuilder.java:118-135 | An edge id exists exactly when both ends' logical ids are strings or null; the other branch is the Java cast failure. The id is the source's part, the separator `~`, and the target's part, where each part is the end's logical id, or its vertex id when it has none. The label takes no part. |
| Taxonomy.VertexLink | src/main/java/com/pentaho/metaverse/impl/MetaverseBuilder.java:436-443 | Adds the edge, labelled and with its text property, under its id only when no edge has that id. Otherwise the graph is returned unchanged. Vertices never change, and after the call an edge with that id is stored. |
| Taxonomy.SecondRelationDropped | src/main/java/com/pentaho/metaverse/impl/MetaverseBuilder.java:436-443 | Once an edge between two vertices is stored, a link between them under any other label changes nothing, because the label is not part of the edge id. |
| Taxonomy.EntityTypeProps | src/main/java/com/pentaho/metaverse/impl/MetaverseBuilder.java:193-200 | A new entity type has type `Entity` and its node type as name. It has a description exactly when it is the type of transformations or of jobs. It has no virtual flag and no logical id. |
| Taxonomy.CreateRootEntity | src/main/java/com/pentaho/metaverse/impl/MetaverseBuilder.java:218-231 | Adds the root under its fixed id with exactly its fixed properties, and changes nothing else. |
| Taxonomy.NewEntityType | src/main/java/com/pentaho/metaverse/impl/MetaverseBuilder.java:193-200 | Adds exactly the entity type's vertex, with its fixed properties, and changes nothing else. |
| Taxonomy.EntityTypeIsNotRoot | src/main/java/com/pentaho/metaverse/impl/MetaverseBuilder.java:42-44 | No entity type's vertex id equals the root's id. |
| Taxonomy.EnsureRoot | src/main/java/com/pentaho/metaverse/impl/MetaverseBuilder.java:202-206 | An existing root is left as it is. A missing one is created, without a flag or a logical id. |
| Taxonomy.AddEntityType | src/main/java/com/pentaho/metaverse/impl/MetaverseBuilder.java:186-213 | An entity type already present is returned with the graph unchanged, so each type is created at most once. On first sight the call adds exactly the type's vertex, with its fixed properties, and the root if it was missing, and stores the root-to-type edge. It fails only when the existing root's logical id does not cast. |
| Taxonomy.AttachToEntityType | src/main/java/com/pentaho/metaverse/impl/MetaverseBuilder.java:171-176 | After the call the entity type exists, and a new, unkeyed parent-concept edge leads from it to the vertex. Nothing of the graph is lost. |
| Taxonomy.PlaceVertex | src/main/java/com/pentaho/metaverse/impl/MetaverseBuilder.java:167-179 | The node gets a new empty vertex under its string id, or a made-up id. An existing id is refused with the graph unchanged. A node of an entity type is also hung under its entity type, and other nodes change nothing else. |
| Links.NewVirtual | src/main/java/com/pentaho/metaverse/impl/MetaverseBuilder.java:89-93 | The vertex created for an end that resolved to nothing is new, named for the node, and flagged virtual. No other vertex changes, and no existing flag changes. |
| Links.LinkEnd | src/main/java/com/pentaho/metaverse/impl/MetaverseBuilder.java:88-104 | One end is written onto its resolved vertex, or onto a new virtual one. A null node with no vertex throws. For an end that resolved, it throws exactly when the copy's reads do not cast; a new end's throws (a refused id, a failed cast while hanging it under its entity type) are not characterised. Writing an end that already holds the node changes nothing. |
| Links.WriteEnds | src/main/java/com/pentaho/metaverse/impl/MetaverseBuilder.java:84-104 | Both ends are written, the from end first, and nothing else changes beyond placing new ends under their entity types. Two new plain ends give exactly two new virtual vertices carrying the nodes, and two resolved ends add no vertex. Two settled ends change nothing. |
| Links.AddLink | src/main/java/com/pentaho/metaverse/impl/MetaverseBuilder.java:81-108 | A null link or null from node throws before writing. A completed call places both ends, keeps every vertex's virtual flag, and adds no flagged vertex but the ends. It stores the edge, adding it exactly when its id was free. A settled link changes nothing. A link whose two ends are settled does not throw and changes no vertex. After the call the link is settled when its ends are distinct, each keyed by its string id (or new), and each node's logical-id property is a string or null. A call that throws loses no vertex or edge and changes no flag. |
| Links.StoredOnce | src/main/java/com/pentaho/metaverse/impl/MetaverseBuilder.java:436-443 | When writing the ends changed no edge, the link's edge is added to the original edges exactly when its id was free. |
| Links.SettledAfterWrite | src/main/java/com/pentaho/metaverse/impl/MetaverseBuilder.java:81-108 | After a link is added whose distinct ends are keyed by their string ids (or were new), and whose nodes' logical-id properties are strings or null, adding it again would change nothing. |
| Links.AddLinkNodes | src/main/java/com/pentaho/metaverse/impl/MetaverseBuilder.java:427-434 | Linking two nodes under a label does what adding the link made of them does. |
| Links.KeysKeptWhenResolved | src/main/java/com/pentaho/metaverse/impl/MetaverseBuilder.java:84-104 | A link both of whose ends resolve adds no vertex. |
| Nodes.MarkReal | src/main/java/com/pentaho/metaverse/impl/MetaverseBuilder.java:146-154 | The node's resolved vertex, or a new one named for it, is marked real, and no other vertex changes. An already real vertex leaves the graph unchanged. |
| Nodes.WriteNode | src/main/java/com/pentaho/metaverse/impl/MetaverseBuilder.java:146-156 | The vertex ends up real and holding the node merged onto its old properties, and no other vertex changes. A settled node changes nothing. |
| Nodes.AddNode | src/main/java/com/pentaho/metaverse/impl/MetaverseBuilder.java:144-159 | A null node throws before writing. A completed call leaves the node's vertex real and holding it, changes no other vertex, keeps every real vertex real, and adds no other flagged vertex. For a node with a string id whose logical-id property is null or its own logical id, that vertex is afterwards again a vertex the node may resolve to. For a node with a string id, keyed by it (or new), whose logical-id property is a string or null, adding it again changes nothing. Only a cast failure can throw. |
| Nodes.FoundAfterAdd | src/main/java/com/pentaho/metaverse/impl/MetaverseBuilder.java:274-293 | After `addNode`, the vertex the node was written to is again a vertex the node may resolve to, unless its logical-id property named a different logical id. |
| Nodes.SettledAfterAdd | src/main/java/com/pentaho/metaverse/impl/MetaverseBuilder.java:144-159 | After a node with a string id, keyed by it (or new), whose logical-id property is a string or null, is added, it is settled, so adding it again changes nothing. |
| Nodes.UpdateNode | src/main/java/com/pentaho/metaverse/impl/MetaverseBuilder.java:404-412 | A node that resolves to nothing changes nothing, and such a node is the only case that returns without a write. Otherwise the node is merged onto its vertex alone and no virtual flag changes. A write happens only when the merge's reads cast on that vertex; when they fail on every vertex the node may resolve to, the call throws with the graph unchanged. For a node keyed by its string id, it throws exactly when the reads on its vertex do not cast. |
| Nodes.DeleteNode | src/main/java/com/pentaho/metaverse/impl/MetaverseBuilder.java:352-358 | A node that resolves to nothing changes nothing. Otherwise one of its candidates is removed, with its edges. |
| Unlink.ScanEdges | src/main/java/com/pentaho/metaverse/impl/MetaverseBuilder.java:323-331 | The scan finds an edge leaving the vertex with the link's label and entering the vertex keyed by the to node's string id, whenever such an edge exists. Otherwise it reports the target of some edge looked at, or none when there was none. A null to node with an edge to compare throws. |
| Unlink.IsVirtual | src/main/java/com/pentaho/metaverse/impl/MetaverseBuilder.java:452-459 | A vertex reads as virtual exactly when it exists and its flag is `true`. A null vertex or flag reads as not virtual, and a non-Boolean flag fails the cast. |
| Unlink.DropIfVirtual | src/main/java/com/pentaho/metaverse/impl/MetaverseBuilder.java:339-346 | A vertex is removed exactly when it reads as virtual. A flag that does not cast throws, and a null vertex changes nothing. |
| Unlink.FinishFacts | src/main/java/com/pentaho/metaverse/impl/MetaverseBuilder.java:333-346 | After the scan, the matched edge is gone and only virtual vertices are removed. The result says whether an edge was removed. Without the cascade no vertex goes, and with it a virtual from vertex goes. |
| Unlink.RemoveLink | src/main/java/com/pentaho/metaverse/impl/MetaverseBuilder.java:309-349 | A null link or unresolvable from node changes nothing and reports false. The call reports true exactly when a matching edge existed. Nothing is ever added or changed, and only edges and virtual vertices are removed. With the cascade a virtual from vertex is removed, and without it no vertex is. |
| Unlink.DeleteLink | src/main/java/com/pentaho/metaverse/impl/MetaverseBuilder.java:296-299 | Removing a link always asks for its virtual vertices to go too, and the result is what such a removal may give. |
| Unlink.UpdateLinkLabel | src/main/java/com/pentaho/metaverse/impl/MetaverseBuilder.java:367-373 | A null label, null link or missing link changes nothing. Otherwise the matching edge is removed and the link is added again, under the new label, under the id its ends now give; that id can differ from the removed edge's, and when it is already taken no edge is added back. Real vertices stay real. A link whose two ends are settled is relabelled without a throw. |
| Scenarios.RepeatAddNode | src/main/java/com/pentaho/metaverse/impl/MetaverseBuilder.java:144-159 | Adding twice a node with a string id, keyed by it (or new), whose logical-id property is a string or null, gives exactly one vertex, and the second call changes nothing. |
| Scenarios.SettledUnderAnyRelation | src/main/java/com/pentaho/metaverse/impl/MetaverseBuilder.java:118-135 | A settled link is settled under every label. |
| Scenarios.RepeatAddLink | src/main/java/com/pentaho/metaverse/impl/MetaverseBuilder.java:81-108 | Adding a link again, under any label, leaves the graph exactly as the first call left it, so no duplicate edge appears. |
| Scenarios.SelfLinkOnNewNode | src/main/java/com/pentaho/metaverse/impl/MetaverseBuilder.java:84-102 | A link from a new node with a string id to itself always throws. |
| Scenarios.UpdateAgreesWithAdd | src/main/java/com/pentaho/metaverse/impl/MetaverseBuilder.java:404-412 | On a real vertex keyed by the node's string id, `updateNode` writes exactly what `addNode` writes. |
| Scenarios.AddThenDeleteNode | src/main/java/com/pentaho/metaverse/impl/MetaverseBuilder.java:352-358 | Adding a new plain node and then deleting it gives back the original graph. |
| Scenarios.FreshLinkScan | src/main/java/com/pentaho/metaverse/impl/MetaverseBuilder.java:323-331 | From a new from vertex, the scan finds exactly the link's own edge. |
| Scenarios.UnlinkFreshLink | src/main/java/com/pentaho/metaverse/impl/MetaverseBuilder.java:333-346 | Removing the edge and the two virtual vertices that adding a link created gives back the original graph, and reports the edge removed. |
| Scenarios.AddThenDeleteLink | src/main/java/com/pentaho/metaverse/impl/MetaverseBuilder.java:309-349 | Adding a link between two new plain nodes, and then deleting it, gives back the original graph. |
| Scenarios.RelabelNewLink | src/main/java/com/pentaho/metaverse/impl/MetaverseBuilder.java:367-373 | Relabelling the link just added completes, and leaves the original edges plus the link's edge, under the same id, with the new label. |
| Scenarios.AddThenRelabel | src/main/java/com/pentaho/metaverse/impl/MetaverseBuilder.java:367-373 | When adding a link between two new plain nodes completes with an edge id that was free, relabelling it completes too and leaves the original edges plus one edge under the same id, with the new label. |
| Scenarios.ShrinksKeepsReal | src/main/java/com/pentaho/metaverse/impl/MetaverseBuilder.java:339-346 | Removing only virtual vertices keeps every real vertex, still real. |
| Scenarios.Apply | src/main/java/com/pentaho/metaverse/impl/MetaverseBuilder.java:81-412 | Any builder call but `deleteNode` keeps every real vertex real, whether it completes or throws, and keeps the store well formed. |
| Scenarios.Session | src/main/java/com/pentaho/metaverse/impl/MetaverseBuilder.java:81-412 | In any sequence of calls without `deleteNode`, a vertex once real stays real, and the store stays well formed. |
| Locator.Locate | src/main/java/com/pentaho/metaverse/locator/RepositoryLocatorRunner.java:47-75 | The walk of a list of trees, as the code does it: before each tree it checks for a stop request, and a null tree ends the walk. It is a definition; its properties are those of `Locator.Run` and the lemmas about `Locate` below. |
| Locator.Visit | src/main/java/com/pentaho/metaverse/locator/RepositoryLocatorRunner.java:53-71 | The walk of one tree, as the code does it. It is a definition; its properties are those of the lemmas about `Visit` below. |
| Locator.Run | src/main/java/com/pentaho/metaverse/locator/RepositoryLocatorRunner.java:47-75 | The processor is handed a prefix of the reachable visible non-folder files, in depth-first order, and nothing else. Without a stop request, a walk meeting no null tree hands over all of them. It dies exactly when it meets one, and it stops only when asked. The failures recorded are exactly the processed files the processor failed on. A null list, or a stop request seen from the first check, processes nothing. |
| Locator.LocateGrows | src/main/java/com/pentaho/metaverse/locator/RepositoryLocatorRunner.java:49-71 | A walk of a list extends the processed files by a prefix of the list's reachable visible files, by all of them unless it stopped or died. It stops only when asked. |
| Locator.VisitGrows | src/main/java/com/pentaho/metaverse/locator/RepositoryLocatorRunner.java:53-71 | The same for one tree: a visible file is processed, a hidden one or a folder is not, and a folder's children are walked. |
| Locator.LocateFailures | src/main/java/com/pentaho/metaverse/locator/RepositoryLocatorRunner.java:59-64 | The failed files recorded are exactly the processed files on which the processor failed. |
| Locator.VisitFailures | src/main/java/com/pentaho/metaverse/locator/RepositoryLocatorRunner.java:53-71 | The same for one tree. |
| Locator.FailuresIgnored | src/main/java/com/pentaho/metaverse/locator/RepositoryLocatorRunner.java:59-64 | A processor failure is caught and changes nothing else. Two walks differing only in which files fail agree on everything but the failures. |
| Locator.FailuresIgnoredOne | src/main/java/com/pentaho/metaverse/locator/RepositoryLocatorRunner.java:53-71 | The same for one tree. |
| Locator.LocateNever | src/main/java/com/pentaho/metaverse/locator/RepositoryLocatorRunner.java:49-74 | A walk never asked to stop does not stop. It dies exactly when it meets a null tree. |
| Locator.VisitNever | src/main/java/com/pentaho/metaverse/locator/RepositoryLocatorRunner.java:53-71 | The same for one tree: a null tree, or a walked folder holding one, kills the walk. |
| Locator.StoppedWalk | src/main/java/com/pentaho/metaverse/locator/RepositoryLocatorRunner.java:50-52 | Once the stop request is seen, nothing more is processed. |
| Locator.StopLater | src/main/java/com/pentaho/metaverse/locator/RepositoryLocatorRunner.java:50-52 | A walk asked to stop earlier processes a prefix of what a walk asked later processes. If it never saw the request, it ends exactly as the later one does. |
| Locator.StopVisitLater | src/main/java/com/pentaho/metaverse/locator/RepositoryLocatorRunner.java:66-70 | The same for one tree, whose folder recurses into its children. |

## Left out

- The metaverse object factory, `getMetaverseObjectFactory` and
  `setMetaverseObjectFactory` (MetaverseBuilder.java:375-395): they choose
  which factory creates descriptors and do not touch the graph. The link
  object that `addLink(fromNode, label, toNode)` creates is modelled as a
  plain `Link` value.
- Logging and message lookup in the locator: they have no effect on the
  walk.
- The namespace argument of `processFile` and the processor itself: the
  processor is the parameter `fails`, which says on which files it throws.
  What it does with a file is not part of this model.
- `stopping` is set from another thread. The model fixes, for each walk,
  from which flag check on the flag reads set (`AtCheck`), or that it is
  never set (`Never`). Other interleavings are not modelled.
- A null list of children is skipped, as the source does. A null element in
  a list of trees makes the walk die (`crashed`), since the exception is not
  caught. A null top-level list dies at once. Exceptions are not otherwise
  modelled.
- `DictionaryHelper.isEntityType` is a parameter. The dictionary's
  constants are written out as literals in `Dictionary`. The dictionary class
  is not part of this model.
- Null labels and null node types: labels and types are strings. Only the
  null `label` argument of `updateLinkLabel` is modelled.
- A node's logical id is never null. When a node's logical id is null and
  no vertex has its string id, the source's comparison of the two ids
  throws a null-pointer exception; the model has no such node.
- Changes to the caller's objects that survive an exception. The source
  flushes a node (`setDirty(false)`) and relabels a link in place, so a call
  that throws afterwards, such as `addLink` whose to end fails after the
  from node was flushed, or `updateLinkLabel` whose re-add fails after the
  relabel, leaves those objects changed. A thrown outcome in the model
  carries the graph only; the updated node or link is returned only on
  completion.
- Ids the store makes up for vertices added without an id are never equal
  to a string id.
- The store's choices: which vertex `getVertices` returns first among those
  sharing a logical id, and the order of a vertex's out-edges. The model
  leaves both open and its contracts hold for every choice.
- `removeVertex` follows the Blueprints store contract: the vertex's edges go
  with it. Removing a vertex that is already gone is modelled as doing
  nothing; some stores refuse it instead, which matters only for the second
  removal in the cascade of a self-loop. The code leaves edge removal to
  the store, and the store removes them.
- The cascade of `deleteLink` reads both vertices' virtual flags from the
  graph as the call found it. A self-loop's vertex, already removed, is
  therefore not read again. A vertex the graph does not hold reads as having
  no properties.
- Links.LinkEnd: for an end that resolved to nothing, the contract does not
  say when the call throws: the store may refuse the new id, and hanging the
  vertex under its entity type may fail a cast.
- Links.AddLink: the exact new vertex and edge maps are stated only when both
  ends are new plain nodes or both resolve. Otherwise the contract states what
  each end holds, what is kept, that no flag changes, and that the edge is
  stored.
- Links.AddLink: for a call that throws, the contract states what is kept,
  not which writes survive; for instance, it does not state that the from
  end's write remains when the to end then fails.
- Unlink.UpdateLinkLabel: that the vertex keys stay the same, and which edges
  result, are stated only when every edge joins two stored vertices.
- Scenarios.UpdateAgreesWithAdd: compares the two calls only when both
  complete. It does not state that one throws exactly when the other does.
- Scenarios.AddThenDeleteNode: states the round trip only for a new node,
  with a string id and not of an entity type.
- Scenarios.AddThenDeleteLink: states the round trip only for two new plain
  ends whose edge id was not yet in use.
- Scenarios.AddThenRelabel: states the result only for two new plain ends
  whose edge id was not yet in use.
- Scenarios.RepeatAddLink: states the repetition only for distinct ends keyed
  by their string ids (or new) whose logical-id property casts.
- Scenarios.SelfLinkOnNewNode: states that the call throws, not which
  exception.
- Scenarios.Session: states well-formedness and that real vertices stay
  real. The full effect of a sequence of calls is not stated.

=== FILE: dictionary.dfy ===
/**
 * Property keys, node types and link labels the builder uses.
 *
 * The lineage dictionary that defines most of these values is not part of this
 * model; the literals below are stand-ins.  Every proof depends only on the
 * stand-ins being pairwise distinct, never on their spelling.  The prefix, the
 * root id, the separator and the root entity's descriptive texts are the ones
 * the builder itself spells out.
 */
module Dictionary {

  // keys the builder reads or writes
  const IdKey := "id"
  const VirtualKey := "virtual"
  const LogicalIdKey := "logicalId"
  const TypeKey := "type"
  const NameKey := "name"
  const DescriptionKey := "description"
  const TextKey := "text"

  // node types and the taxonomy label
  const EntityNodeType := "Entity"
  const RootEntityNodeType := "Root Entity"
  const TransNodeType := "Transformation"
  const JobNodeType := "Job"
  const ParentConcept := "parentconcept"

  // literals written out in the builder itself
  const EntityPrefix := "entity_"
  const RootEntityId := "entity"
  const Separator := "~"
  const PdiDescription := "Pentaho Data Integration"
}

=== FILE: frames.dfy ===
/**
 * What a builder call leaves alone, and the values the calls return.
 */
module Frames {
  import opened PropertyGraph
  import opened Dictionary
  import opened Metaverse
  import opened Taxonomy

  /** A graph together with the vertex a node was written to and the (flushed) node. */
  datatype Written = Written(graph: Graph, vertex: VertexId, node: Node)

  /** Every vertex of `g` outside `touched` is still in `h`, unchanged. */
  predicate OthersKept(g: Graph, h: Graph, touched: set<VertexId>) {
    forall u | u in g.vertices && u !in touched :: u in h.vertices && h.vertices[u] == g.vertices[u]
  }

  /** Every vertex of `g` that `h` still holds has the virtual flag it had in `g`. */
  predicate FlagsKept(g: Graph, h: Graph) {
    forall u | u in g.vertices && u in h.vertices :: Get(h.vertices[u], VirtualKey) == Get(g.vertices[u], VirtualKey)
  }

  /** A vertex is real once a node was added for it. */
  predicate IsReal(p: Props) {
    Get(p, VirtualKey) == Bool(false)
  }

  /** Every real vertex of `g` is still in `h`, and still real. */
  predicate RealKept(g: Graph, h: Graph) {
    forall u | u in g.vertices && IsReal(g.vertices[u]) :: u in h.vertices && IsReal(h.vertices[u])
  }

  /** Vertex `v` carries the id the store gives a vertex added for node `n`. */
  predicate NamedBy(n: Node, v: VertexId) {
    if n.stringId.Some? then v == Given(n.stringId.value) else v.Generated?
  }

  lemma RealKeptTrans(a: Graph, b: Graph, c: Graph)
    requires RealKept(a, b) && RealKept(b, c)
    ensures RealKept(a, c)
  {
  }

  /** A graph that grows and keeps every flag keeps every real vertex real. */
  lemma GrowsKeepsReal(g: Graph, h: Graph)
    requires Grows(g, h) && FlagsKept(g, h)
    ensures RealKept(g, h)
  {
  }

  lemma FlagsKeptTrans(a: Graph, b: Graph, c: Graph)
    requires Grows(a, b) && FlagsKept(a, b) && FlagsKept(b, c)
    ensures FlagsKept(a, c)
  {
  }

  /** Rewriting the properties of a vertex `g` lacked keeps every frame that held before. */
  lemma SetFreshProps(g: Graph, h: Graph, v: VertexId, p: Props)
    requires Extends(g, h) && v !in g.vertices && v in h.vertices
    requires FreshUnflagged(g, h, {v})
    ensures OthersKept(g, SetProps(h, v, p), {v})
    ensures FreshUnflagged(g, SetProps(h, v, p), {v})
    ensures Grows(g, SetProps(h, v, p))
    ensures FlagsKept(g, SetProps(h, v, p))
  {
  }

  /**
   * Rewriting the properties of vertex `v` keeps every frame that held of it
   * before, and keeps the flags when `v` is new or keeps its flag.
   */
  lemma Rewrite(g: Graph, h: Graph, v: VertexId, p: Props)
    requires v in h.vertices
    requires OthersKept(g, h, {v}) && FreshUnflagged(g, h, {v}) && Grows(g, h)
    ensures OthersKept(g, SetProps(h, v, p), {v})
    ensures FreshUnflagged(g, SetProps(h, v, p), {v})
    ensures Grows(g, SetProps(h, v, p))
    ensures v !in g.vertices || Get(p, VirtualKey) == Get(g.vertices[v], VirtualKey) ==> FlagsKept(g, SetProps(h, v, p))
  {
  }

  /**
   * Two writes, the first touching no old vertex but `s` and the second none
   * but `t`, together touch no old vertex but `s` and `t`, and add no flagged
   * vertex but those two.
   */
  lemma TwoWrites(a: Graph, b: Graph, c: Graph, s: VertexId, t: VertexId)
    requires OthersKept(a, b, {s}) && FreshUnflagged(a, b, {s})
    requires OthersKept(b, c, {t}) && FreshUnflagged(b, c, {t})
    requires forall u | u in a.vertices :: u in b.vertices
    ensures OthersKept(a, c, {s, t})
    ensures FreshUnflagged(a, c, {s, t})
  {
  }
}

=== FILE: identity.dfy ===
/**
 * Identity resolution: finding the vertex that stands for a node.
 */
module Identity {
  import opened Wrappers
  import opened PropertyGraph
  import opened Dictionary
  import opened Metaverse

  /** The vertex properties carry logical id `lid`. */
  predicate HasLogicalId(p: Props, lid: string) {
    Get(p, LogicalIdKey) == Str(lid)
  }

  /** Some vertex of `g` carries logical id `lid`. */
  predicate LogicalIdKnown(g: Graph, lid: string) {
    exists v | v in g.vertices :: HasLogicalId(g.vertices[v], lid)
  }

  /**
   * `v` may stand for the node: it is the vertex keyed by the node's string
   * id when there is one; otherwise, and only when the node's logical id
   * differs from its string id, any vertex carrying that logical id.  A null
   * node or a null string id has no candidate.
   */
  predicate Candidate(g: Graph, node: Option<Node>, v: VertexId) {
    && node.Some?
    && node.value.stringId.Some?
    && v in g.vertices
    && if Given(node.value.stringId.value) in g.vertices then v == Given(node.value.stringId.value)
       else node.value.logicalId != node.value.stringId.value && HasLogicalId(g.vertices[v], node.value.logicalId)
  }

  /** Some vertex of `g` stands for the node. */
  predicate Resolvable(g: Graph, node: Option<Node>) {
    && node.Some?
    && node.value.stringId.Some?
    && (|| Given(node.value.stringId.value) in g.vertices
        || (node.value.logicalId != node.value.stringId.value && LogicalIdKnown(g, node.value.logicalId)))
  }

  /**
   * The vertex for a node, or nothing.  When several vertices carry the
   * logical id the store returns the first it meets; which one that is is
   * left open here.
   */
  method Resolve(g: Graph, node: Option<Node>) returns (r: Option<VertexId>)
    ensures r.Some? <==> Resolvable(g, node)
    ensures r.Some? ==> Candidate(g, node, r.value)
  {
    if node.None? || node.value.stringId.None? {
      return None;
    }
    var id := node.value.stringId.value;
    var lid := node.value.logicalId;
    if Given(id) in g.vertices {
      return Some(Given(id));
    }
    if lid == id || !LogicalIdKnown(g, lid) {
      return None;
    }
    var v :| v in g.vertices && HasLogicalId(g.vertices[v], lid);
    return Some(v);
  }

  /** A node is resolvable exactly when it has a candidate, and the candidate keyed by its id is the only one. */
  lemma ResolvableIffCandidate(g: Graph, node: Option<Node>)
    ensures Resolvable(g, node) <==> exists v :: Candidate(g, node, v)
    ensures node.Some? && node.value.stringId.Some? && Given(node.value.stringId.value) in g.vertices ==>
              forall v :: Candidate(g, node, v) <==> v == Given(node.value.stringId.value)
  {
    if Resolvable(g, node) {
      if Given(node.value.stringId.value) in g.vertices {
        assert Candidate(g, node, Given(node.value.stringId.value));
      } else {
        var v :| v in g.vertices && HasLogicalId(g.vertices[v], node.value.logicalId);
        assert Candidate(g, node, v);
      }
    }
  }
}

=== FILE: links.dfy ===
/**
 * Adding links: both ends are resolved, an end that resolves to nothing gets
 * a new vertex flagged virtual, each node is copied onto its vertex, and the
 * edge is added unless an edge with its id is already stored.
 */
module Links {
  import opened Wrappers
  import opened PropertyGraph
  import opened Dictionary
  import opened Metaverse
  import opened Identity
  import opened PropertyMerge
  import opened Taxonomy
  import opened Frames

  /** A graph after a link was written, with the link as written and its two vertices. */
  datatype LinkWrite = LinkWrite(graph: Graph, link: Link, source: VertexId, target: VertexId)

  /** The properties a vertex created for a link end starts with. */
  const VirtualMark: Props := map[VirtualKey := Bool(true)]

  /** What a link end's vertex holds before its node is copied onto it. */
  function EndBase(g: Graph, v: VertexId): Props {
    if v in g.vertices then g.vertices[v] else VirtualMark
  }

  /**
   * Vertex `v` of `h` stands for link end `n`: `n` resolved to it in `g`, or
   * `n` resolved to nothing and `v` is a new virtual vertex named for it.
   */
  predicate EndPlaced(g: Graph, h: Graph, n: Option<Node>, v: VertexId) {
    && v in h.vertices
    && if Resolvable(g, n) then Candidate(g, n, v)
       else n.Some? && v !in g.vertices && NamedBy(n.value, v) && Get(h.vertices[v], VirtualKey) == Bool(true)
  }

  /**
   * The ends' vertices after their nodes were copied, the from node first:
   * onto the vertex each started from, or both onto one vertex in turn.
   */
  predicate EndsMerged(g: Graph, h: Graph, l: Link, s: VertexId, t: VertexId) {
    && l.from.Some? && l.to.Some?
    && s in h.vertices && t in h.vertices
    && if s != t then
         && MergeCastsOk(EndBase(g, s), l.from.value) && h.vertices[s] == MergeProps(EndBase(g, s), l.from.value)
         && MergeCastsOk(EndBase(g, t), l.to.value) && h.vertices[t] == MergeProps(EndBase(g, t), l.to.value)
       else h.vertices[s] == MergeProps(MergeProps(EndBase(g, s), l.from.value), l.to.value)
  }

  /** The edge from `s` to `t` has an id and is stored under it. */
  predicate EdgeStored(h: Graph, s: VertexId, relation: string, t: VertexId) {
    && s in h.vertices && t in h.vertices
    && EdgeKey(h, s, relation, t).Some?
    && Keyed(EdgeKey(h, s, relation, t).value) in h.edges
  }

  /** The ends of link `l` written to `g` are the vertices of `w`, carrying the nodes. */
  predicate EndsPlaced(g: Graph, l: Link, w: LinkWrite) {
    && l.from.Some? && l.to.Some?
    && w.link == Link(Some(Flushed(l.from.value)), l.relation, Some(Flushed(l.to.value)))
    && EndPlaced(g, w.graph, l.from, w.source)
    && EndPlaced(g, w.graph, l.to, w.target)
    && EndsMerged(g, w.graph, l, w.source, w.target)
    && (w.source == w.target ==> Resolvable(g, l.from) && Resolvable(g, l.to))
  }

  /**
   * Writing link `l`'s ends `s` and `t` changed no other vertex of `g`, added
   * no flagged vertex but those two, kept every flag, and added no vertex at
   * all when both ends resolved.
   */
  predicate WriteFrame(g: Graph, h: Graph, l: Link, s: VertexId, t: VertexId) {
    && OthersKept(g, h, {s, t})
    && FreshUnflagged(g, h, {s, t})
    && FlagsKept(g, h)
    && Grows(g, h)
    && (Resolvable(g, l.from) && Resolvable(g, l.to) ==> forall u | u in h.vertices :: u in g.vertices)
  }

  /** What writing both ends of link `l` to graph `g` leaves behind in `w`. */
  predicate EndsWritten(g: Graph, l: Link, w: LinkWrite) {
    EndsPlaced(g, l, w) && WriteFrame(g, w.graph, l, w.source, w.target)
  }

  /** What a completed `addLink` of `l` to graph `g` leaves behind in `w`: both ends written and the edge stored. */
  predicate LinkAdded(g: Graph, l: Link, w: LinkWrite) {
    EndsWritten(g, l, w) && EdgeStored(w.graph, w.source, l.relation, w.target)
  }

  /** Storing an edge after the ends were written keeps what the writes achieved. */
  lemma EdgeKeepsEnds(g: Graph, l: Link, w: LinkWrite, h: Graph)
    requires EndsWritten(g, l, w)
    requires h.vertices == w.graph.vertices && KeepsEdges(w.graph, h) && w.graph.next <= h.next
    ensures EndsWritten(g, l, w.(graph := h))
  {
  }

  /** The edges of `h` are those of `g` plus edge `e` under id `k`, unless `g` already held an edge under `k`. */
  predicate EdgeAdded(g: Graph, h: Graph, k: EdgeId, e: Edge) {
    && (k in g.edges ==> h.edges == g.edges)
    && (k !in g.edges ==> h.edges == g.edges[k := e])
  }

  /** Link end `n` is keyed by its string id and copying it onto its vertex changes nothing. */
  predicate EndSettled(g: Graph, n: Option<Node>) {
    && n.Some? && n.value.stringId.Some?
    && Given(n.value.stringId.value) in g.vertices
    && MergeCastsOk(g.vertices[Given(n.value.stringId.value)], n.value)
    && MergeProps(g.vertices[Given(n.value.stringId.value)], n.value) == g.vertices[Given(n.value.stringId.value)]
  }

  /** Adding link `l` to `g` would change nothing: both ends are settled and the edge is stored. */
  predicate LinkSettled(g: Graph, l: Link) {
    && EndSettled(g, l.from) && EndSettled(g, l.to)
    && EdgeStored(g, Given(l.from.value.stringId.value), l.relation, Given(l.to.value.stringId.value))
  }

  /** Link end `n` has a string id, is keyed by it or is new, and its logical-id property casts. */
  predicate EndByIdOrNew(g: Graph, n: Option<Node>) {
    && n.Some? && n.value.stringId.Some?
    && (Given(n.value.stringId.value) in g.vertices || !Resolvable(g, n))
    && TextOrNull(Get(n.value.props, LogicalIdKey))
  }

  /** Both ends of `l` are new, have string ids and are not of an entity type. */
  predicate PlainNewEnds(g: Graph, isEntityType: string -> bool, l: Link) {
    && l.from.Some? && l.from.value.stringId.Some? && !Resolvable(g, l.from) && !isEntityType(l.from.value.nodeType)
    && l.to.Some? && l.to.value.stringId.Some? && !Resolvable(g, l.to) && !isEntityType(l.to.value.nodeType)
  }

  /**
   * What writing one link end leaves behind in `w`: the node, flushed, copied
   * onto vertex `found` or onto a new vertex named for it, and nothing else of
   * `g` changed but that vertex.
   */
  predicate EndWrite(g: Graph, node: Option<Node>, found: Option<VertexId>, w: Written) {
    var h := w.graph;
    var v := w.vertex;
    && node.Some?
    && w.node == Flushed(node.value)
    && (found.Some? ==> v == found.value)
    && (found.None? ==> v !in g.vertices && NamedBy(node.value, v))
    && (found.Some? ==> forall u | u in h.vertices :: u in g.vertices)
    && v in h.vertices
    && MergeCastsOk(EndBase(g, v), node.value)
    && h.vertices[v] == MergeProps(EndBase(g, v), node.value)
    && OthersKept(g, h, {v})
    && FreshUnflagged(g, h, {v})
    && FlagsKept(g, h)
    && Grows(g, h)
  }

  /** Writing the from end and then the to end places both ends. */
  lemma TwoEndsPlaced(g: Graph, l: Link, fromFound: Option<VertexId>, toFound: Option<VertexId>, a: Written, b: Written)
    requires fromFound.Some? <==> Resolvable(g, l.from)
    requires fromFound.Some? ==> Candidate(g, l.from, fromFound.value)
    requires toFound.Some? <==> Resolvable(g, l.to)
    requires toFound.Some? ==> Candidate(g, l.to, toFound.value)
    requires EndWrite(g, l.from, fromFound, a) && EndWrite(a.graph, l.to, toFound, b)
    ensures EndsPlaced(g, l, LinkWrite(b.graph, Link(Some(a.node), l.relation, Some(b.node)), a.vertex, b.vertex))
  {
    var s, t := a.vertex, b.vertex;
    assert EndBase(a.graph, t) == if s == t then MergeProps(EndBase(g, s), l.from.value) else EndBase(g, t);
  }

  /** Writing the from end and then the to end touches nothing but the two ends. */
  lemma TwoEndsFrame(g: Graph, l: Link, fromFound: Option<VertexId>, toFound: Option<VertexId>, a: Written, b: Written)
    requires fromFound.Some? <==> Resolvable(g, l.from)
    requires toFound.Some? <==> Resolvable(g, l.to)
    requires EndWrite(g, l.from, fromFound, a) && EndWrite(a.graph, l.to, toFound, b)
    ensures WriteFrame(g, b.graph, l, a.vertex, b.vertex)
  {
    GrowsTrans(g, a.graph, b.graph);
    FlagsKeptTrans(g, a.graph, b.graph);
    TwoWrites(g, a.graph, b.graph, a.vertex, b.vertex);
  }

  /** The vertex for a link end that resolved to nothing: a new vertex, flagged virtual. */
  method NewVirtual(g: Graph, isEntityType: string -> bool, node: Option<Node>) returns (r: Outcome<Placed>)
    requires Valid(g)
    ensures node.None? ==> r == Thrown(NullReference, g)
    ensures node.Some? && node.value.stringId.Some? && Given(node.value.stringId.value) in g.vertices ==>
              r == Thrown(DuplicateVertex, g)
    ensures r.Done? ==>
              var h := r.value.graph;
              var v := r.value.vertex;
              && node.Some?
              && v !in g.vertices
              && NamedBy(node.value, v)
              && v in h.vertices
              && h.vertices[v] == VirtualMark
              && OthersKept(g, h, {v})
              && FreshUnflagged(g, h, {v})
              && FlagsKept(g, h)
              && Grows(g, h)
              && Valid(h)
    ensures r.Done? && !isEntityType(node.value.nodeType) ==>
              && r.value.graph.vertices == g.vertices[r.value.vertex := VirtualMark]
              && r.value.graph.edges == g.edges
              && (node.value.stringId.Some? ==> r.value.graph.next == g.next)
    ensures r.Thrown? ==> Valid(r.state) && Grows(g, r.state) && FlagsKept(g, r.state)
  {
    var p :- PlaceVertex(g, isEntityType, node);
    SetFreshProps(g, p.graph, p.vertex, VirtualMark);
    return Done(Placed(SetProps(p.graph, p.vertex, VirtualMark), p.vertex));
  }

  /**
   * Writes one end of a link: the vertex `found` when the node resolved, else
   * a new virtual vertex; then the node is copied onto it.
   */
  method LinkEnd(g: Graph, isEntityType: string -> bool, node: Option<Node>, found: Option<VertexId>) returns (r: Outcome<Written>)
    requires Valid(g)
    requires found.Some? ==> found.value in g.vertices && node.Some?
    ensures found.None? && node.None? ==> r == Thrown(NullReference, g)
    ensures r.Done? ==> EndWrite(g, node, found, r.value) && Valid(r.value.graph)
    ensures r.Done? && (found.Some? || !isEntityType(node.value.nodeType)) ==>
              && r.value.graph.vertices == g.vertices[r.value.vertex := MergeProps(EndBase(g, r.value.vertex), node.value)]
              && r.value.graph.edges == g.edges
              && (found.Some? || node.value.stringId.Some? ==> r.value.graph.next == g.next)
    ensures found.Some? ==> (r.Thrown? <==> !MergeCastsOk(g.vertices[found.value], node.value))
    ensures found.Some? && MergeCastsOk(g.vertices[found.value], node.value)
              && MergeProps(g.vertices[found.value], node.value) == g.vertices[found.value] ==>
              r == Done(Written(g, found.value, Flushed(node.value)))
    ensures r.Thrown? ==> Valid(r.state) && Grows(g, r.state) && FlagsKept(g, r.state)
  {
    var p: Placed;
    if found.Some? {
      p := Placed(g, found.value);
    } else {
      p :- NewVirtual(g, isEntityType, node);
    }
    var w :- Copy(p.graph, node.value, p.vertex);
    var merged := MergeProps(p.graph.vertices[p.vertex], node.value);
    Rewrite(g, p.graph, p.vertex, merged);
    if found.Some? {
      assert g.vertices[p.vertex := g.vertices[p.vertex]] == g.vertices;
    } else if !isEntityType(node.value.nodeType) {
      assert p.graph.vertices[p.vertex := merged] == g.vertices[p.vertex := merged];
    }
    return Done(Written(w.graph, p.vertex, w.node));
  }

  /**
   * Writes both ends of a link, the from end first, given what each node
   * resolved to in `g`.
   */
  method WriteEnds(g: Graph, isEntityType: string -> bool, l: Link, fromFound: Option<VertexId>, toFound: Option<VertexId>)
    returns (r: Outcome<LinkWrite>)
    requires Valid(g)
    requires fromFound.Some? <==> Resolvable(g, l.from)
    requires fromFound.Some? ==> Candidate(g, l.from, fromFound.value)
    requires toFound.Some? <==> Resolvable(g, l.to)
    requires toFound.Some? ==> Candidate(g, l.to, toFound.value)
    ensures l.from.None? ==> r == Thrown(NullReference, g)
    ensures l.to.None? ==> r.Thrown?
    ensures r.Done? ==> EndsWritten(g, l, r.value) && Valid(r.value.graph)
    ensures r.Done? && PlainNewEnds(g, isEntityType, l) ==>
              && r.value.graph.vertices == g.vertices[r.value.source := MergeProps(VirtualMark, l.from.value)]
                                                     [r.value.target := MergeProps(VirtualMark, l.to.value)]
              && r.value.graph.edges == g.edges
              && r.value.graph.next == g.next
    ensures r.Done? && Resolvable(g, l.from) && Resolvable(g, l.to) ==>
              r.value.graph.edges == g.edges && r.value.graph.next == g.next
    ensures EndSettled(g, l.from) && EndSettled(g, l.to) ==>
              r == Done(LinkWrite(g, Link(Some(Flushed(l.from.value)), l.relation, Some(Flushed(l.to.value))),
                                  Given(l.from.value.stringId.value), Given(l.to.value.stringId.value)))
    ensures r.Thrown? ==> Valid(r.state) && Grows(g, r.state) && FlagsKept(g, r.state)
  {
    var a :- LinkEnd(g, isEntityType, l.from, fromFound);
    var b := LinkEnd(a.graph, isEntityType, l.to, toFound);
    if b.Thrown? {
      GrowsTrans(g, a.graph, b.state);
      FlagsKeptTrans(g, a.graph, b.state);
      return Thrown(b.fault, b.state);
    }
    TwoEndsPlaced(g, l, fromFound, toFound, a, b.value);
    TwoEndsFrame(g, l, fromFound, toFound, a, b.value);
    return Done(LinkWrite(b.value.graph, Link(Some(a.node), l.relation, Some(b.value.node)), a.vertex, b.value.vertex));
  }

  /**
   * Adds a link.  Both nodes are resolved against the graph as it was before
   * the call; the from end is written, then the to end, and the edge last.
   * An end that resolved keeps its vertex and that vertex's virtual flag.
   */
  method AddLink(g: Graph, isEntityType: string -> bool, link: Option<Link>) returns (r: Outcome<LinkWrite>)
    requires Valid(g)
    ensures link.None? ==> r == Thrown(NullReference, g)
    ensures link.Some? && link.value.from.None? ==> r == Thrown(NullReference, g)
    ensures link.Some? && link.value.to.None? ==> r.Thrown?
    ensures r.Done? ==> link.Some? && LinkAdded(g, link.value, r.value) && Valid(r.value.graph)
    ensures r.Done? && PlainNewEnds(g, isEntityType, link.value) ==>
              var h := r.value.graph;
              var l := link.value;
              var k := Keyed(EdgeKey(h, r.value.source, l.relation, r.value.target).value);
              && h.vertices == g.vertices[r.value.source := MergeProps(VirtualMark, l.from.value)]
                                         [r.value.target := MergeProps(VirtualMark, l.to.value)]
              && h.next == g.next
              && EdgeAdded(g, h, k, LinkEdge(r.value.source, l.relation, r.value.target))
    ensures r.Done? && Resolvable(g, link.value.from) && Resolvable(g, link.value.to) ==>
              var h := r.value.graph;
              var k := Keyed(EdgeKey(h, r.value.source, link.value.relation, r.value.target).value);
              && h.next == g.next
              && EdgeAdded(g, h, k, LinkEdge(r.value.source, link.value.relation, r.value.target))
    ensures link.Some? && LinkSettled(g, link.value) ==>
              var l := link.value;
              r == Done(LinkWrite(g, Link(Some(Flushed(l.from.value)), l.relation, Some(Flushed(l.to.value))),
                                  Given(l.from.value.stringId.value), Given(l.to.value.stringId.value)))
    // with both ends settled, the only write left is the edge, and its id casts
    ensures link.Some? && EndSettled(g, link.value.from) && EndSettled(g, link.value.to) ==>
              && r.Done?
              && r.value.graph.vertices == g.vertices
              && r.value.source == Given(link.value.from.value.stringId.value)
              && r.value.target == Given(link.value.to.value.stringId.value)
    ensures r.Done? && EndByIdOrNew(g, link.value.from) && EndByIdOrNew(g, link.value.to)
              && link.value.from.value.stringId != link.value.to.value.stringId ==>
              LinkSettled(r.value.graph, link.value)
    ensures r.Thrown? ==> Valid(r.state) && Grows(g, r.state) && FlagsKept(g, r.state)
  {
    if link.None? {
      return Thrown(NullReference, g);
    }
    var l := link.value;
    var fromFound := Resolve(g, l.from);
    var toFound := Resolve(g, l.to);
    var w :- WriteEnds(g, isEntityType, l, fromFound, toFound);
    var e := VertexLink(w.graph, w.source, l.relation, w.target);
    if e.Thrown? {
      return Thrown(e.fault, e.state);
    }
    EdgeKeepsEnds(g, l, w, e.value);
    if w.graph.edges == g.edges && w.graph.next == g.next {
      StoredOnce(g, w.graph, w.source, l.relation, w.target, e.value);
    }
    r := Done(w.(graph := e.value));
    SettledAfterWrite(g, l, r.value);
  }

  /** Storing the edge for a link on a graph whose edges are those of `g` adds it to those of `g`, once. */
  lemma StoredOnce(g: Graph, w: Graph, s: VertexId, relation: string, t: VertexId, h: Graph)
    requires Valid(w) && s in w.vertices && t in w.vertices
    requires w.edges == g.edges && w.next == g.next
    requires VertexLink(w, s, relation, t) == Done(h)
    ensures h.next == g.next
    ensures EdgeAdded(g, h, Keyed(EdgeKey(h, s, relation, t).value), LinkEdge(s, relation, t))
  {
    assert EdgeKey(h, s, relation, t) == EdgeKey(w, s, relation, t);
  }

  /**
   * After a link was added whose ends are keyed by distinct string ids (or
   * were new), adding it again changes nothing.
   */
  lemma SettledAfterWrite(g: Graph, l: Link, w: LinkWrite)
    requires LinkAdded(g, l, w)
    ensures EndByIdOrNew(g, l.from) && EndByIdOrNew(g, l.to) && l.from.value.stringId != l.to.value.stringId ==>
              LinkSettled(w.graph, l)
  {
    if EndByIdOrNew(g, l.from) && EndByIdOrNew(g, l.to) && l.from.value.stringId != l.to.value.stringId {
      assert w.source == Given(l.from.value.stringId.value);
      assert w.target == Given(l.to.value.stringId.value);
      MergeIdempotent(EndBase(g, w.source), l.from.value);
      MergeIdempotent(EndBase(g, w.target), l.to.value);
      MergeKeepsCasts(EndBase(g, w.source), l.from.value);
      MergeKeepsCasts(EndBase(g, w.target), l.to.value);
    }
  }

  /** Adds the link built from two nodes and a relation. */
  method AddLinkNodes(g: Graph, isEntityType: string -> bool, from: Option<Node>, relation: string, to: Option<Node>)
    returns (r: Outcome<LinkWrite>)
    requires Valid(g)
    ensures from.None? ==> r == Thrown(NullReference, g)
    ensures to.None? ==> r.Thrown?
    ensures r.Done? ==> LinkAdded(g, Link(from, relation, to), r.value) && Valid(r.value.graph)
    ensures LinkSettled(g, Link(from, relation, to)) ==>
              r == Done(LinkWrite(g, Link(Some(Flushed(from.value)), relation, Some(Flushed(to.value))),
                                  Given(from.value.stringId.value), Given(to.value.stringId.value)))
    ensures r.Thrown? ==> Valid(r.state) && Grows(g, r.state) && FlagsKept(g, r.state)
  {
    r := AddLink(g, isEntityType, Some(Link(from, relation, to)));
  }

  /** A link both of whose ends resolve adds no vertex. */
  lemma KeysKeptWhenResolved(g: Graph, l: Link, w: LinkWrite)
    requires EndsWritten(g, l, w)
    requires Resolvable(g, l.from) && Resolvable(g, l.to)
    ensures w.graph.vertices.Keys == g.vertices.Keys
  {
  }
}

=== FILE: locator.dfy ===
/**
 * The repository crawl: a depth-first walk over a list of repository file
 * trees that hands every visible file to the document processor, recursing
 * into folders, and that can be asked to stop from outside.
 */
module Locator {
  import opened Wrappers

  /** A repository file: its name and path, whether it is a folder, whether it is hidden. */
  datatype FileEntry = FileEntry(name: string, path: string, folder: bool, hidden: bool)

  /**
   * An element of a list of repository file trees: null, or a tree with a
   * possibly null file and a possibly null list of child trees.
   */
  datatype FileTree = NullTree | FileTree(file: Option<FileEntry>, kids: Kids)

  /** A possibly null list of child trees. */
  datatype Kids = NullList | List(trees: seq<FileTree>)

  /**
   * When the runner is asked to stop.  The flag is set from outside and
   * never cleared, so a walk sees it from some check on: `AtCheck(k)` says
   * the flag check numbered `k` (from 0) and every later one find it set.
   */
  datatype Stop = Never | AtCheck(k: nat)

  /**
   * The state of a walk: how many times the stop flag was checked, the files
   * handed to the processor and those of them it failed on, whether the walk
   * returned because it was asked to stop, and whether it died on a null
   * tree.
   */
  datatype Walk = Walk(checks: nat, processed: seq<FileEntry>, failed: seq<FileEntry>, halted: bool, crashed: bool)

  const Start := Walk(0, [], [], false, false)

  predicate Stopping(stop: Stop, check: nat) {
    stop.AtCheck? && stop.k <= check
  }

  /** Stop `a` comes no later than stop `b`. */
  predicate NoLater(a: Stop, b: Stop) {
    match b
    case Never => true
    case AtCheck(k) => a.AtCheck? && a.k <= k
  }

  /** A file the processor is given: one that is neither a folder nor hidden. */
  predicate Eligible(f: FileEntry) {
    !f.folder && !f.hidden
  }

  function Filter<T>(s: seq<T>, keep: T -> bool): (r: seq<T>)
    ensures |r| <= |s|
    ensures forall x | x in r :: x in s && keep(x)
  {
    if |s| == 0 then [] else (if keep(s[0]) then [s[0]] else []) + Filter(s[1..], keep)
  }

  lemma {:induction false} FilterAppend<T>(s: seq<T>, t: seq<T>, keep: T -> bool)
    ensures Filter(s + t, keep) == Filter(s, keep) + Filter(t, keep)
  {
    if |s| == 0 {
      assert s + t == t;
    } else {
      assert (s + t)[1..] == s[1..] + t;
      FilterAppend(s[1..], t, keep);
    }
  }

  // ---- the reference: what a walk can reach ------------------------------

  /**
   * The files a walk of `trees` meets, in depth-first pre-order and list
   * order: the file of every tree, and, below a folder, the files its
   * children reach.
   */
  function Reachable(trees: seq<FileTree>): seq<FileEntry>
    decreases trees
  {
    if |trees| == 0 then [] else ReachableOne(trees[0]) + Reachable(trees[1..])
  }

  function ReachableOne(t: FileTree): seq<FileEntry>
    decreases t
  {
    match t
    case NullTree => []
    case FileTree(file, kids) =>
      if file.None? then []
      else [file.value] + (if file.value.folder && kids.List? then Reachable(kids.trees) else [])
  }

  /** The reachable files the processor is given. */
  function Files(trees: seq<FileTree>): (r: seq<FileEntry>) {
    Filter(Reachable(trees), Eligible)
  }

  function FilesOne(t: FileTree): seq<FileEntry> {
    Filter(ReachableOne(t), Eligible)
  }

  /** No null tree is met on the walk. */
  predicate Whole(trees: seq<FileTree>)
    decreases trees
  {
    |trees| == 0 || (WholeOne(trees[0]) && Whole(trees[1..]))
  }

  predicate WholeOne(t: FileTree)
    decreases t
  {
    match t
    case NullTree => false
    case FileTree(file, kids) => file.Some? && file.value.folder && kids.List? ==> Whole(kids.trees)
  }

  lemma FilesSplit(trees: seq<FileTree>)
    requires |trees| > 0
    ensures Files(trees) == FilesOne(trees[0]) + Files(trees[1..])
  {
    FilterAppend(ReachableOne(trees[0]), Reachable(trees[1..]), Eligible);
  }

  lemma FilesOfFile(t: FileTree)
    requires t.FileTree? && t.file.Some?
    ensures !t.file.value.folder ==> FilesOne(t) == (if Eligible(t.file.value) then [t.file.value] else [])
    ensures t.file.value.folder && t.kids.List? ==> FilesOne(t) == Files(t.kids.trees)
    ensures t.file.value.folder && t.kids.NullList? ==> FilesOne(t) == []
  {
    var f := t.file.value;
    var below := if f.folder && t.kids.List? then Reachable(t.kids.trees) else [];
    FilterAppend([f], below, Eligible);
    assert [f][1..] == [];
  }

  // ---- the walk -----------------------------------------------------------

  /** Hands file `f` to the processor, which fails on it when `fails` says so; the failure is only logged. */
  function Process(w: Walk, f: FileEntry, fails: FileEntry -> bool): Walk {
    w.(processed := w.processed + [f], failed := if fails(f) then w.failed + [f] else w.failed)
  }

  /**
   * `locate`: for each tree in turn, return if asked to stop; otherwise
   * examine the tree.  A null tree ends the whole walk (the exception is not
   * caught).
   */
  function Locate(trees: seq<FileTree>, stop: Stop, fails: FileEntry -> bool, w: Walk): Walk
    decreases trees
  {
    if |trees| == 0 then w
    else if Stopping(stop, w.checks) then w.(checks := w.checks + 1, halted := true)
    else
      var w2 := Visit(trees[0], stop, fails, w.(checks := w.checks + 1));
      if w2.crashed then w2 else Locate(trees[1..], stop, fails, w2)
  }

  /**
   * One tree: a null file is skipped with everything below it; a file is
   * processed unless hidden; a folder is walked when it has a non-empty
   * list of children, hidden or not.
   */
  function Visit(t: FileTree, stop: Stop, fails: FileEntry -> bool, w: Walk): Walk
    decreases t
  {
    match t
    case NullTree => w.(crashed := true)
    case FileTree(file, kids) =>
      if file.None? then w
      else if !file.value.folder then
        if file.value.hidden then w else Process(w, file.value, fails)
      else if kids.List? && |kids.trees| > 0 then Locate(kids.trees, stop, fails, w)
      else w
  }

  /** A walk that is alive, and stopped only if asked to. */
  predicate Calm(stop: Stop, w: Walk) {
    !w.crashed && (w.halted ==> Stopping(stop, w.checks))
  }

  /** Once asked to stop, a walk processes nothing more. */
  lemma StoppedWalk(trees: seq<FileTree>, stop: Stop, fails: FileEntry -> bool, w: Walk)
    requires Stopping(stop, w.checks)
    ensures Locate(trees, stop, fails, w).processed == w.processed
    ensures Locate(trees, stop, fails, w).failed == w.failed
    ensures w.halted ==> Locate(trees, stop, fails, w).halted
  {
  }

  /**
   * Two stretches of a walk, the first taking `p` to `m` by a prefix of `a`
   * and the second taking `m` to `e` by a prefix of `b`, take `p` to `e` by a
   * prefix of `a + b`, and by all of it when neither stretch was cut short.
   */
  lemma JoinWalks<T>(p: seq<T>, m: seq<T>, e: seq<T>, a: seq<T>, b: seq<T>, cutM: bool, cutE: bool)
    requires p <= m && m[|p|..] <= a && (cutM || m == p + a)
    requires m <= e && e[|m|..] <= b && (cutE || e == m + b)
    requires cutM ==> e == m && cutE
    ensures p <= e && e[|p|..] <= a + b && (cutE || e == p + (a + b))
  {
    var x, y := m[|p|..], e[|m|..];
    assert e == p + x + y;
    assert e[|p|..] == x + y;
    if cutM {
      assert y == [];
      assert x + y == x;
      assert (a + b)[..|x|] == a[..|x|];
    } else {
      assert x == a;
      assert (a + b)[..|x + y|] == x + y;
    }
  }

  /**
   * Walk `r` carried on from `w` by handing the processor a prefix of
   * `files`, all of them unless it stopped or died, and it stopped only if
   * asked to.
   */
  predicate GrewBy(stop: Stop, w: Walk, r: Walk, files: seq<FileEntry>) {
    && w.processed <= r.processed
    && r.processed[|w.processed|..] <= files
    && (r.halted || r.crashed || r.processed == w.processed + files)
    && (r.halted ==> Stopping(stop, r.checks))
  }

  /** A walk that grew by a prefix of `a` and then by a prefix of `b` grew by a prefix of `a + b`. */
  lemma GrewByJoin(stop: Stop, w: Walk, m: Walk, e: Walk, a: seq<FileEntry>, b: seq<FileEntry>)
    requires GrewBy(stop, w, m, a) && GrewBy(stop, m, e, b)
    requires m.halted || m.crashed ==> e.processed == m.processed && (e.halted || e.crashed)
    ensures GrewBy(stop, w, e, a + b)
  {
    JoinWalks(w.processed, m.processed, e.processed, a, b, m.halted || m.crashed, e.halted || e.crashed);
  }

  /**
   * A walk hands the processor a prefix of the files it can reach, all of
   * them unless it stopped or died, and it stops only when asked to.
   */
  lemma {:induction false} LocateGrows(trees: seq<FileTree>, stop: Stop, fails: FileEntry -> bool, w: Walk)
    requires Calm(stop, w)
    ensures GrewBy(stop, w, Locate(trees, stop, fails, w), Files(trees))
    decreases trees
  {
    var r := Locate(trees, stop, fails, w);
    if |trees| == 0 {
      assert r.processed[|w.processed|..] == [];
    } else if Stopping(stop, w.checks) {
      assert r.processed[|w.processed|..] == [];
    } else {
      var w1 := w.(checks := w.checks + 1);
      var w2 := Visit(trees[0], stop, fails, w1);
      VisitGrows(trees[0], stop, fails, w1);
      assert GrewBy(stop, w, w2, FilesOne(trees[0]));
      FilesSplit(trees);
      if w2.crashed {
        assert r == w2;
        assert w2.processed[|w2.processed|..] == [];
        GrewByJoin(stop, w, w2, w2, FilesOne(trees[0]), Files(trees[1..]));
      } else {
        assert r == Locate(trees[1..], stop, fails, w2);
        LocateGrows(trees[1..], stop, fails, w2);
        if w2.halted {
          StoppedWalk(trees[1..], stop, fails, w2);
        }
        GrewByJoin(stop, w, w2, r, FilesOne(trees[0]), Files(trees[1..]));
      }
    }
  }

  lemma {:induction false} VisitGrows(t: FileTree, stop: Stop, fails: FileEntry -> bool, w: Walk)
    requires Calm(stop, w)
    ensures GrewBy(stop, w, Visit(t, stop, fails, w), FilesOne(t))
    decreases t
  {
    var r := Visit(t, stop, fails, w);
    if t.FileTree? && t.file.Some? {
      var f := t.file.value;
      FilesOfFile(t);
      if !f.folder && !f.hidden {
        assert r.processed[|w.processed|..] == [f];
      } else if f.folder && t.kids.List? && |t.kids.trees| > 0 {
        LocateGrows(t.kids.trees, stop, fails, w);
      } else {
        assert r == w;
        assert r.processed[|w.processed|..] == [];
        if f.folder && t.kids.List? {
          assert Files(t.kids.trees) == [];
        }
      }
    } else {
      assert r.processed[|w.processed|..] == [];
    }
  }

  /** The files a walk records as failed are those of the processed ones the processor fails on. */
  lemma {:induction false} LocateFailures(trees: seq<FileTree>, stop: Stop, fails: FileEntry -> bool, w: Walk)
    requires w.failed == Filter(w.processed, fails)
    ensures Locate(trees, stop, fails, w).failed == Filter(Locate(trees, stop, fails, w).processed, fails)
    decreases trees
  {
    if |trees| > 0 && !Stopping(stop, w.checks) {
      var w1 := w.(checks := w.checks + 1);
      VisitFailures(trees[0], stop, fails, w1);
      var w2 := Visit(trees[0], stop, fails, w1);
      if !w2.crashed {
        LocateFailures(trees[1..], stop, fails, w2);
      }
    }
  }

  lemma {:induction false} VisitFailures(t: FileTree, stop: Stop, fails: FileEntry -> bool, w: Walk)
    requires w.failed == Filter(w.processed, fails)
    ensures Visit(t, stop, fails, w).failed == Filter(Visit(t, stop, fails, w).processed, fails)
    decreases t
  {
    if t.FileTree? && t.file.Some? {
      var f := t.file.value;
      if !f.folder && !f.hidden {
        FilterAppend(w.processed, [f], fails);
        assert [f][1..] == [];
      } else if f.folder && t.kids.List? && |t.kids.trees| > 0 {
        LocateFailures(t.kids.trees, stop, fails, w);
      }
    }
  }

  /** With no request to stop, a walk dies exactly when it meets a null tree, and otherwise processes every reachable file. */
  lemma {:induction false} LocateNever(trees: seq<FileTree>, fails: FileEntry -> bool, w: Walk)
    requires !w.crashed && !w.halted
    ensures var r := Locate(trees, Never, fails, w);
            && !r.halted
            && (r.crashed <==> !Whole(trees))
    decreases trees
  {
    if |trees| > 0 {
      var w1 := w.(checks := w.checks + 1);
      VisitNever(trees[0], fails, w1);
      var w2 := Visit(trees[0], Never, fails, w1);
      if !w2.crashed {
        LocateNever(trees[1..], fails, w2);
      }
    }
  }

  lemma {:induction false} VisitNever(t: FileTree, fails: FileEntry -> bool, w: Walk)
    requires !w.crashed && !w.halted
    ensures var r := Visit(t, Never, fails, w);
            && !r.halted
            && (r.crashed <==> !WholeOne(t))
    decreases t
  {
    if t.FileTree? && t.file.Some? && t.file.value.folder && t.kids.List? && |t.kids.trees| > 0 {
      LocateNever(t.kids.trees, fails, w);
    }
  }

  /**
   * A walk asked to stop earlier processes a prefix of what one asked later
   * processes, and, if it never saw the request, ends exactly as the later
   * one does.
   */
  lemma {:induction false} StopLater(trees: seq<FileTree>, early: Stop, late: Stop, fails: FileEntry -> bool, w: Walk)
    requires NoLater(early, late) && !w.crashed && !w.halted
    ensures var r1 := Locate(trees, early, fails, w);
            var r2 := Locate(trees, late, fails, w);
            && r1.processed <= r2.processed
            && (!r1.halted ==> r1 == r2)
    decreases trees
  {
    if |trees| == 0 {
    } else if Stopping(early, w.checks) {
      LocateGrows(trees, late, fails, w);
    } else {
      var w1 := w.(checks := w.checks + 1);
      StopVisitLater(trees[0], early, late, fails, w1);
      var a := Visit(trees[0], early, fails, w1);
      var b := Visit(trees[0], late, fails, w1);
      if !a.halted {
        if !a.crashed {
          StopLater(trees[1..], early, late, fails, a);
        }
      } else {
        VisitGrows(trees[0], early, fails, w1);
        VisitGrows(trees[0], late, fails, w1);
        if !a.crashed {
          StoppedWalk(trees[1..], early, fails, a);
        }
        if !b.crashed {
          LocateGrows(trees[1..], late, fails, b);
        }
      }
    }
  }

  lemma {:induction false} StopVisitLater(t: FileTree, early: Stop, late: Stop, fails: FileEntry -> bool, w: Walk)
    requires NoLater(early, late) && !w.crashed && !w.halted
    ensures var r1 := Visit(t, early, fails, w);
            var r2 := Visit(t, late, fails, w);
            && r1.processed <= r2.processed
            && (!r1.halted ==> r1 == r2)
    decreases t
  {
    if t.FileTree? && t.file.Some? && t.file.value.folder && t.kids.List? && |t.kids.trees| > 0 {
      StopLater(t.kids.trees, early, late, fails, w);
    }
  }

  /**
   * A failure of the processor changes nothing but the record of failures:
   * the walk goes on exactly as if the file had been processed.
   */
  lemma {:induction false} FailuresIgnored(trees: seq<FileTree>, stop: Stop, f1: FileEntry -> bool, f2: FileEntry -> bool, w1: Walk, w2: Walk)
    requires w1.(failed := []) == w2.(failed := [])
    ensures Locate(trees, stop, f1, w1).(failed := []) == Locate(trees, stop, f2, w2).(failed := [])
    decreases trees
  {
    if |trees| > 0 && !Stopping(stop, w1.checks) {
      var v1, v2 := w1.(checks := w1.checks + 1), w2.(checks := w2.checks + 1);
      FailuresIgnoredOne(trees[0], stop, f1, f2, v1, v2);
      var a, b := Visit(trees[0], stop, f1, v1), Visit(trees[0], stop, f2, v2);
      if !a.crashed {
        FailuresIgnored(trees[1..], stop, f1, f2, a, b);
      }
    }
  }

  lemma {:induction false} FailuresIgnoredOne(t: FileTree, stop: Stop, f1: FileEntry -> bool, f2: FileEntry -> bool, w1: Walk, w2: Walk)
    requires w1.(failed := []) == w2.(failed := [])
    ensures Visit(t, stop, f1, w1).(failed := []) == Visit(t, stop, f2, w2).(failed := [])
    decreases t
  {
    if t.FileTree? && t.file.Some? && t.file.value.folder && t.kids.List? && |t.kids.trees| > 0 {
      FailuresIgnored(t.kids.trees, stop, f1, f2, w1, w2);
    }
  }

  /**
   * A crawl of a list of file trees from a fresh start.  A null list dies
   * at once.
   */
  function Run(trees: Option<seq<FileTree>>, stop: Stop, fails: FileEntry -> bool): (r: Walk)
    ensures trees.None? ==> r.crashed && r.processed == []
    ensures trees.Some? ==> r.processed <= Files(trees.value)
    ensures forall i | 0 <= i < |r.processed| :: Eligible(r.processed[i])
    ensures r.failed == Filter(r.processed, fails)
    ensures r.halted ==> Stopping(stop, r.checks)
    ensures trees.Some? && stop == Never ==>
              && !r.halted
              && (r.crashed <==> !Whole(trees.value))
              && (!r.crashed ==> r.processed == Files(trees.value))
    ensures trees.Some? && stop == AtCheck(0) ==> r.processed == []
  {
    if trees.None? then Walk(0, [], [], false, true)
    else
      LocateGrows(trees.value, stop, fails, Start);
      LocateNever(trees.value, fails, Start);
      LocateFailures(trees.value, stop, fails, Start);
      assert forall i | 0 <= i < |Locate(trees.value, stop, fails, Start).processed| ::
               Locate(trees.value, stop, fails, Start).processed[i] in Files(trees.value);
      Locate(trees.value, stop, fails, Start)
  }
}

=== FILE: metaverse.dfy ===
/**
 * The descriptors analyzers hand to the builder: nodes and links as values,
 * resolved against the graph on every call rather than held as references.
 */
module Metaverse {
  import opened Wrappers
  import opened PropertyGraph

  /**
   * A lineage node as the builder sees it.  `stringId` may be null;
   * `logicalId` is what the node reports as its logical identity (its own
   * implementation, which derives it, is not part of this model); `props` may
   * hold null values; `dirty` marks changes not yet written.
   */
  datatype Node = Node(stringId: Option<string>, logicalId: string, nodeType: string, props: Props, dirty: bool)

  /** A labelled link between two nodes, either of which may be null. */
  datatype Link = Link(from: Option<Node>, relation: string, to: Option<Node>)

  /** The node after a write: its changes are flushed. */
  function Flushed(n: Node): Node {
    n.(dirty := false)
  }
}

=== FILE: nodes.dfy ===
/**
 * Adding, updating and deleting nodes.
 */
module Nodes {
  import opened Wrappers
  import opened PropertyGraph
  import opened Dictionary
  import opened Metaverse
  import opened Identity
  import opened PropertyMerge
  import opened Taxonomy
  import opened Frames

  /** What a node's vertex holds before `addNode` copies the node onto it: its properties, marked real. */
  function NodeBase(g: Graph, v: VertexId): Props {
    (if v in g.vertices then g.vertices[v] else map[])[VirtualKey := Bool(false)]
  }

  /**
   * What a completed `addNode` of `node` to graph `g` leaves behind in `w`:
   * the vertex the node resolved to, or a new one named for it, marked real,
   * with the node copied onto it, and nothing else of `g` changed.
   */
  predicate NodeWritten(g: Graph, node: Option<Node>, w: Written) {
    var h := w.graph;
    var v := w.vertex;
    && node.Some?
    && w.node == Flushed(node.value)
    && (Resolvable(g, node) ==> Candidate(g, node, v))
    && (!Resolvable(g, node) ==> v !in g.vertices && NamedBy(node.value, v))
    && v in h.vertices
    && MergeCastsOk(NodeBase(g, v), node.value)
    && h.vertices[v] == MergeProps(NodeBase(g, v), node.value)
    && IsReal(h.vertices[v])
    && OthersKept(g, h, {v})
    && FreshUnflagged(g, h, {v})
    && RealKept(g, h)
    && Grows(g, h)
  }

  /** Adding `node` to `g` would change nothing: its vertex is keyed by its string id, real, and already carries the node. */
  predicate NodeSettled(g: Graph, node: Option<Node>) {
    && node.Some? && node.value.stringId.Some?
    && Given(node.value.stringId.value) in g.vertices
    && IsReal(g.vertices[Given(node.value.stringId.value)])
    && MergeCastsOk(g.vertices[Given(node.value.stringId.value)], node.value)
    && MergeProps(g.vertices[Given(node.value.stringId.value)], node.value) == g.vertices[Given(node.value.stringId.value)]
  }

  /**
   * The vertex `found`, or a new vertex when the node resolved to nothing,
   * marked real.
   */
  method MarkReal(g: Graph, isEntityType: string -> bool, node: Option<Node>, found: Option<VertexId>) returns (r: Outcome<Placed>)
    requires Valid(g)
    requires found.Some? <==> Resolvable(g, node)
    requires found.Some? ==> Candidate(g, node, found.value)
    ensures node.None? ==> r == Thrown(NullReference, g)
    ensures r.Done? ==>
              var h := r.value.graph;
              var v := r.value.vertex;
              && node.Some?
              && (found.Some? ==> v == found.value)
              && (found.None? ==> v !in g.vertices && NamedBy(node.value, v))
              && v in h.vertices
              && h.vertices[v] == NodeBase(g, v)
              && OthersKept(g, h, {v})
              && FreshUnflagged(g, h, {v})
              && RealKept(g, h)
              && Grows(g, h)
              && Valid(h)
    ensures r.Done? && (found.Some? || !isEntityType(node.value.nodeType)) ==>
              && r.value.graph.vertices == g.vertices[r.value.vertex := NodeBase(g, r.value.vertex)]
              && r.value.graph.edges == g.edges
              && (found.Some? || node.value.stringId.Some? ==> r.value.graph.next == g.next)
    ensures found.Some? && IsReal(g.vertices[found.value]) ==> r == Done(Placed(g, found.value))
    ensures node.Some? && r.Thrown? ==> r.fault == BadCast
    ensures r.Thrown? ==> Valid(r.state) && Grows(g, r.state) && RealKept(g, r.state)
  {
    var p: Placed;
    if found.Some? {
      p := Placed(g, found.value);
    } else {
      p :- PlaceVertex(g, isEntityType, node);
    }
    var v := p.vertex;
    var base := p.graph.vertices[v][VirtualKey := Bool(false)];
    assert base == NodeBase(g, v);
    Rewrite(g, p.graph, v, base);
    if found.Some? && IsReal(g.vertices[v]) {
      assert base == g.vertices[v];
      assert g.vertices[v := g.vertices[v]] == g.vertices;
    } else if found.None? && !isEntityType(node.value.nodeType) {
      assert p.graph.vertices[v := base] == g.vertices[v := base];
    }
    return Done(Placed(SetProps(p.graph, v, base), v));
  }

  /**
   * Marks the vertex `found` real, or a new vertex when the node resolved to
   * nothing, and copies the node onto it.
   */
  method WriteNode(g: Graph, isEntityType: string -> bool, node: Option<Node>, found: Option<VertexId>) returns (r: Outcome<Written>)
    requires Valid(g)
    requires found.Some? <==> Resolvable(g, node)
    requires found.Some? ==> Candidate(g, node, found.value)
    ensures node.None? ==> r == Thrown(NullReference, g)
    ensures r.Done? ==> NodeWritten(g, node, r.value) && Valid(r.value.graph)
    ensures r.Done? && (found.Some? || !isEntityType(node.value.nodeType)) ==>
              && r.value.graph.vertices == g.vertices[r.value.vertex := MergeProps(NodeBase(g, r.value.vertex), node.value)]
              && r.value.graph.edges == g.edges
              && (found.Some? || node.value.stringId.Some? ==> r.value.graph.next == g.next)
    ensures NodeSettled(g, node) ==> r == Done(Written(g, Given(node.value.stringId.value), Flushed(node.value)))
    ensures node.Some? && r.Thrown? ==> r.fault == BadCast
    ensures r.Thrown? ==> Valid(r.state) && Grows(g, r.state) && RealKept(g, r.state)
  {
    var p :- MarkReal(g, isEntityType, node, found);
    var v := p.vertex;
    var w :- Copy(p.graph, node.value, v);
    var merged := MergeProps(NodeBase(g, v), node.value);
    Rewrite(g, p.graph, v, merged);
    if NodeSettled(g, node) {
      assert g.vertices[v := g.vertices[v]] == g.vertices;
    } else if found.Some? || !isEntityType(node.value.nodeType) {
      assert p.graph.vertices[v := merged] == g.vertices[v := merged];
    }
    return Done(Written(w.graph, v, w.node));
  }

  /**
   * Adds a node: its vertex is the one it resolves to, or a new one when it
   * resolves to none; the vertex is marked real and the node copied onto it.
   */
  method AddNode(g: Graph, isEntityType: string -> bool, node: Option<Node>) returns (r: Outcome<Written>)
    requires Valid(g)
    ensures node.None? ==> r == Thrown(NullReference, g)
    ensures r.Done? ==> NodeWritten(g, node, r.value) && Valid(r.value.graph)
    ensures r.Done? && (Resolvable(g, node) || !isEntityType(node.value.nodeType)) ==>
              && r.value.graph.vertices == g.vertices[r.value.vertex := MergeProps(NodeBase(g, r.value.vertex), node.value)]
              && r.value.graph.edges == g.edges
              && (Resolvable(g, node) || node.value.stringId.Some? ==> r.value.graph.next == g.next)
    ensures r.Done? && node.value.stringId.Some?
              && (Get(node.value.props, LogicalIdKey) == Null || Get(node.value.props, LogicalIdKey) == Str(node.value.logicalId)) ==>
              Candidate(r.value.graph, node, r.value.vertex)
    ensures NodeSettled(g, node) ==> r == Done(Written(g, Given(node.value.stringId.value), Flushed(node.value)))
    ensures r.Done? && node.value.stringId.Some?
              && (Given(node.value.stringId.value) in g.vertices || !Resolvable(g, node))
              && TextOrNull(Get(node.value.props, LogicalIdKey)) ==>
              NodeSettled(r.value.graph, node)
    ensures node.Some? && r.Thrown? ==> r.fault == BadCast
    ensures r.Thrown? ==> Valid(r.state) && Grows(g, r.state) && RealKept(g, r.state)
  {
    var found := Resolve(g, node);
    r := WriteNode(g, isEntityType, node, found);
    if r.Done? {
      SettledAfterAdd(g, node, r.value);
      FoundAfterAdd(g, node, r.value);
    }
  }

  /**
   * After `addNode`, the node (with a string id) resolves again to the vertex
   * it was written to, unless its logical-id property moved that vertex's
   * logical id away from the node's.
   */
  lemma FoundAfterAdd(g: Graph, node: Option<Node>, w: Written)
    requires NodeWritten(g, node, w)
    requires Resolvable(g, node) ==> w.graph.vertices.Keys == g.vertices.Keys
    ensures node.value.stringId.Some?
              && (Get(node.value.props, LogicalIdKey) == Null || Get(node.value.props, LogicalIdKey) == Str(node.value.logicalId)) ==>
              Candidate(w.graph, node, w.vertex)
  {
  }

  /** After a node keyed by its string id (or new) was added, adding it again changes nothing. */
  lemma SettledAfterAdd(g: Graph, node: Option<Node>, w: Written)
    requires NodeWritten(g, node, w)
    ensures node.value.stringId.Some? && (Given(node.value.stringId.value) in g.vertices || !Resolvable(g, node))
              && TextOrNull(Get(node.value.props, LogicalIdKey)) ==>
              NodeSettled(w.graph, node)
  {
    if node.value.stringId.Some? && (Given(node.value.stringId.value) in g.vertices || !Resolvable(g, node))
       && TextOrNull(Get(node.value.props, LogicalIdKey)) {
      assert w.vertex == Given(node.value.stringId.value);
      MergeIdempotent(NodeBase(g, w.vertex), node.value);
      MergeKeepsCasts(NodeBase(g, w.vertex), node.value);
    }
  }

  /**
   * Copies a node onto the vertex it resolves to; a node that resolves to
   * nothing changes nothing (and stays dirty).
   */
  method UpdateNode(g: Graph, node: Option<Node>) returns (r: Outcome<Option<Written>>)
    requires Valid(g)
    ensures r == Done(None) <==> !Resolvable(g, node)
    ensures r.Done? && r.value.Some? ==>
              var w := r.value.value;
              && Candidate(g, node, w.vertex)
              && w.node == Flushed(node.value)
              && w.graph.vertices == g.vertices[w.vertex := MergeProps(g.vertices[w.vertex], node.value)]
              && w.graph.edges == g.edges
              && w.graph.next == g.next
              && FlagsKept(g, w.graph)
              && Valid(w.graph)
    ensures r.Thrown? ==>
              && r.fault == BadCast
              && r.state == g
              && exists v :: Candidate(g, node, v) && !MergeCastsOk(g.vertices[v], node.value)
    // a write happens only when the merge's reads cast on the vertex written
    ensures r.Done? && r.value.Some? ==>
              r.value.value.vertex in g.vertices && MergeCastsOk(g.vertices[r.value.value.vertex], node.value)
    ensures Resolvable(g, node) && (forall v | Candidate(g, node, v) :: !MergeCastsOk(g.vertices[v], node.value)) ==>
              r.Thrown?
    // a node keyed by its string id throws exactly when the reads on its vertex do not cast
    ensures node.Some? && node.value.stringId.Some? && Given(node.value.stringId.value) in g.vertices ==>
              (r.Thrown? <==> !MergeCastsOk(g.vertices[Given(node.value.stringId.value)], node.value))
  {
    var found := Resolve(g, node);
    if found.None? {
      return Done(None);
    }
    var w :- Copy(g, node.value, found.value);
    return Done(Some(Written(w.graph, found.value, w.node)));
  }

  /** Removes the vertex a node resolves to, with its edges; a node that resolves to nothing changes nothing. */
  method DeleteNode(g: Graph, node: Option<Node>) returns (h: Graph)
    ensures !Resolvable(g, node) ==> h == g
    ensures Resolvable(g, node) ==> exists v :: Candidate(g, node, v) && h == RemoveVertex(g, v)
    ensures node.Some? && node.value.stringId.Some? && Given(node.value.stringId.value) in g.vertices ==>
              && h.vertices == g.vertices - {Given(node.value.stringId.value)}
              && forall e | e in h.edges :: h.edges[e].source != Given(node.value.stringId.value)
                                           && h.edges[e].target != Given(node.value.stringId.value)
    ensures Valid(g) ==> Valid(h)
    ensures Joined(g) ==> Joined(h)
  {
    var found := Resolve(g, node);
    if found.None? {
      return g;
    }
    return RemoveVertex(g, found.value);
  }
}

=== FILE: property_graph.dfy ===
/**
 * The property graph the builder writes to, as an immutable value.
 *
 * Vertices are keyed by id and carry a property map; edges are keyed by id and
 * carry a source, a target, a label and a property map.  Ids the caller names
 * (`Given`, `Keyed`) and ids the store makes up when asked to add an element
 * without one (`Generated`, `Anonymous`) live in separate spaces, so a made-up
 * id never clashes with a caller's.  The counter `next` is where the store
 * draws made-up ids from.
 */
module PropertyGraph {
  import opened Wrappers

  /** A property value.  `Null` is what a read of an absent key yields. */
  datatype Value = Null | Str(text: string) | Bool(flag: bool) | Other(tag: nat)

  type Props = map<string, Value>

  /** Reading a property: an absent key reads as `Null`. */
  function Get(p: Props, key: string): Value {
    if key in p then p[key] else Null
  }

  datatype VertexId = Given(name: string) | Generated(serial: nat)

  datatype EdgeId = Keyed(key: string) | Anonymous(serial: nat)

  datatype Edge = Edge(source: VertexId, target: VertexId, relation: string, props: Props)

  datatype Graph = Graph(vertices: map<VertexId, Props>, edges: map<EdgeId, Edge>, next: nat)

  const EmptyGraph := Graph(map[], map[], 0)

  /** Made-up ids are drawn below `next`, so the next one drawn is fresh. */
  ghost predicate Valid(g: Graph) {
    && (forall n: nat | Generated(n) in g.vertices :: n < g.next)
    && (forall n: nat | Anonymous(n) in g.edges :: n < g.next)
  }

  /**
   * Every edge joins two vertices of the graph.  Vertex removal keeps this by
   * dropping the edges that touch the vertex; the builder's contracts do not
   * carry it along.
   */
  predicate Joined(g: Graph) {
    forall e | e in g.edges :: g.edges[e].source in g.vertices && g.edges[e].target in g.vertices
  }

  /** Why a builder call was abandoned half-way (a Java exception). */
  datatype Fault =
    | NullReference    // a null node or link was dereferenced
    | BadCast          // a virtual flag that is not a Boolean, or a logical id that is not a string
    | DuplicateVertex  // the store was asked to add a vertex under an id it already holds

  /**
   * The result of a call that may throw.  A thrown call keeps the graph as it was
   * at the moment of the throw: writes made before it are not undone.
   */
  datatype Outcome<+T> = Done(value: T) | Thrown(fault: Fault, state: Graph) {

    predicate IsFailure() {
      Thrown?
    }

    function PropagateFailure<U>(): Outcome<U>
      requires Thrown?
    {
      Thrown(fault, state)
    }

    function Extract(): T
      requires Done?
    {
      value
    }
  }

  /** A graph together with the vertex a call placed or found. */
  datatype Placed = Placed(graph: Graph, vertex: VertexId)

  /** The id the store gives a vertex added under `id`. */
  function NewVertexId(g: Graph, id: Option<string>): VertexId {
    if id.Some? then Given(id.value) else Generated(g.next)
  }

  /** The text of a vertex id, as it is spliced into edge ids. */
  function IdText(v: VertexId): string {
    match v
    case Given(s) => s
    case Generated(n) => NatText(n)
  }

  function NatText(n: nat): string
    decreases n
  {
    if n < 10 then ["0123456789"[n]] else NatText(n / 10) + ["0123456789"[n % 10]]
  }

  /** Every vertex of `g` is still in `g'` with the same properties. */
  predicate KeepsVertices(g: Graph, g': Graph) {
    forall v | v in g.vertices :: v in g'.vertices && g'.vertices[v] == g.vertices[v]
  }

  /** Every edge of `g` is still in `g'`, unchanged. */
  predicate KeepsEdges(g: Graph, g': Graph) {
    forall e | e in g.edges :: e in g'.edges && g'.edges[e] == g.edges[e]
  }

  /** `h` grows `g`: nothing of `g` is lost or changed, and made-up ids stay fresh. */
  predicate Extends(g: Graph, h: Graph) {
    KeepsVertices(g, h) && KeepsEdges(g, h) && g.next <= h.next
  }

  lemma ExtendsTrans(a: Graph, b: Graph, c: Graph)
    requires Extends(a, b) && Extends(b, c)
    ensures Extends(a, c)
  {
  }

  /** `h` holds every vertex and edge of `g`, though vertex properties may have changed. */
  predicate Grows(g: Graph, h: Graph) {
    (forall v | v in g.vertices :: v in h.vertices) && KeepsEdges(g, h) && g.next <= h.next
  }

  lemma GrowsTrans(a: Graph, b: Graph, c: Graph)
    requires Grows(a, b) && Grows(b, c)
    ensures Grows(a, c)
  {
  }

  // ---- store primitives -------------------------------------------------

  /** A new vertex with no properties under an id the graph does not hold. */
  function InsertVertex(g: Graph, v: VertexId): (g': Graph)
    requires Valid(g) && v !in g.vertices && (v.Generated? ==> v.serial < g.next)
    ensures g'.vertices == g.vertices[v := map[]] && g'.edges == g.edges && g'.next == g.next
    ensures Valid(g')
  {
    g.(vertices := g.vertices[v := map[]])
  }

  /**
   * Adds a vertex under `id`, or under a made-up id when `id` is null.  Adding
   * under an id the graph already holds is refused.
   */
  function AddVertex(g: Graph, id: Option<string>): (r: Outcome<Placed>)
    requires Valid(g)
    ensures r.Thrown? <==> id.Some? && Given(id.value) in g.vertices
    ensures r.Thrown? ==> r.fault == DuplicateVertex && r.state == g
    ensures r.Done? ==>
              && r.value.vertex == NewVertexId(g, id)
              && r.value.vertex !in g.vertices
              && r.value.graph.vertices == g.vertices[r.value.vertex := map[]]
              && r.value.graph.edges == g.edges
              && g.next <= r.value.graph.next
              && (id.Some? ==> r.value.graph.next == g.next)
              && Valid(r.value.graph)
  {
    match id
    case Some(s) =>
      if Given(s) in g.vertices then Thrown(DuplicateVertex, g)
      else Done(Placed(InsertVertex(g, Given(s)), Given(s)))
    case None =>
      var g1 := g.(next := g.next + 1);
      Done(Placed(InsertVertex(g1, Generated(g.next)), Generated(g.next)))
  }

  /** Replaces the whole property map of a vertex. */
  function SetProps(g: Graph, v: VertexId, p: Props): (g': Graph)
    requires v in g.vertices
    ensures g'.vertices == g.vertices[v := p] && g'.edges == g.edges && g'.next == g.next
    ensures Valid(g) ==> Valid(g')
  {
    g.(vertices := g.vertices[v := p])
  }

  /** Stores an edge under a caller-chosen key. */
  function PutEdge(g: Graph, key: string, e: Edge): (g': Graph)
    requires Valid(g) && e.source in g.vertices && e.target in g.vertices
    ensures g'.vertices == g.vertices && g'.edges == g.edges[Keyed(key) := e] && g'.next == g.next
    ensures Valid(g')
  {
    g.(edges := g.edges[Keyed(key) := e])
  }

  /** Adds an edge without properties under a made-up id. */
  function AddAnonymousEdge(g: Graph, source: VertexId, target: VertexId, relation: string): (g': Graph)
    requires Valid(g) && source in g.vertices && target in g.vertices
    ensures Anonymous(g.next) !in g.edges
    ensures g'.vertices == g.vertices && g'.next == g.next + 1
    ensures g'.edges == g.edges[Anonymous(g.next) := Edge(source, target, relation, map[])]
    ensures Valid(g')
  {
    Graph(g.vertices, g.edges[Anonymous(g.next) := Edge(source, target, relation, map[])], g.next + 1)
  }

  function RemoveEdge(g: Graph, e: EdgeId): (g': Graph)
    ensures g'.vertices == g.vertices && g'.edges == g.edges - {e} && g'.next == g.next
    ensures Valid(g) ==> Valid(g')
  {
    g.(edges := g.edges - {e})
  }

  /**
   * Removes a vertex together with every edge that touches it.  Removing a
   * vertex the graph no longer holds changes nothing.
   */
  function RemoveVertex(g: Graph, v: VertexId): (g': Graph)
    ensures g'.vertices == g.vertices - {v} && g'.next == g.next
    ensures forall e :: e in g'.edges <==>
              e in g.edges && g.edges[e].source != v && g.edges[e].target != v
    ensures KeepsEdges(g', g)
    ensures Valid(g) ==> Valid(g')
    ensures Joined(g) ==> Joined(g')
  {
    Graph(g.vertices - {v},
          map e | e in g.edges && g.edges[e].source != v && g.edges[e].target != v :: g.edges[e],
          g.next)
  }
}

=== FILE: property_merge.dfy ===
/**
 * Copying a node's properties onto its vertex, with the logical id of a real
 * vertex protected from virtual references.
 */
module PropertyMerge {
  import opened PropertyGraph
  import opened Dictionary
  import opened Metaverse

  /** A graph together with the node a call wrote (and flushed). */
  datatype NodeWrite = NodeWrite(graph: Graph, node: Node)

  /** A read that Java casts to `Boolean` succeeds on null or a Boolean. */
  predicate FlagOrNull(v: Value) {
    v.Null? || v.Bool?
  }

  /** A read that Java casts to `String` succeeds on null or a string. */
  predicate TextOrNull(v: Value) {
    v.Null? || v.Str?
  }

  /** A Boolean read, with null standing for `absent`. */
  function Flag(v: Value, absent: bool): bool {
    if v.Bool? then v.flag else absent
  }

  /** The three reads the merge makes before it writes anything all cast. */
  predicate MergeCastsOk(p: Props, n: Node) {
    && FlagOrNull(Get(n.props, VirtualKey))
    && FlagOrNull(Get(p, VirtualKey))
    && TextOrNull(Get(p, LogicalIdKey))
  }

  /**
   * The logical id is withheld: the vertex already has one, the node is
   * virtual (no flag counts as virtual) and the vertex is real (no flag
   * counts as real).
   */
  predicate ProtectsLogicalId(p: Props, n: Node) {
    Get(p, LogicalIdKey) != Null && Flag(Get(n.props, VirtualKey), true) && !Flag(Get(p, VirtualKey), false)
  }

  /** Key `k` of the node is written onto vertex properties `p`. */
  predicate Copies(p: Props, n: Node, k: string) {
    && k in n.props
    && n.props[k] != Null
    && k != IdKey
    && k != VirtualKey
    && !(k == LogicalIdKey && ProtectsLogicalId(p, n))
  }

  /** The vertex properties `p` after node `n` has been copied onto them. */
  function MergeProps(p: Props, n: Node): (q: Props)
    // the id and the virtual flag are never copied
    ensures Get(q, IdKey) == Get(p, IdKey) && Get(q, VirtualKey) == Get(p, VirtualKey)
    // null values and keys the node lacks leave the vertex as it was
    ensures forall k | k !in n.props || n.props[k] == Null :: Get(q, k) == Get(p, k)
    // every other key but the logical id overwrites
    ensures forall k | k in n.props && n.props[k] != Null && k != IdKey && k != VirtualKey && k != LogicalIdKey ::
              Get(q, k) == n.props[k]
    // the logical id overwrites unless the vertex's is protected
    ensures LogicalIdKey in n.props && n.props[LogicalIdKey] != Null ==>
              Get(q, LogicalIdKey) == if ProtectsLogicalId(p, n) then Get(p, LogicalIdKey) else n.props[LogicalIdKey]
    // nothing but the vertex's own keys and the node's copied keys appears
    ensures forall k | k in q :: k in p || Copies(p, n, k)
  {
    map k | k in p.Keys + n.props.Keys && (k in p || Copies(p, n, k)) :: if Copies(p, n, k) then n.props[k] else p[k]
  }

  /**
   * Copies node `n` onto vertex `v`: throws before writing when a flag or the
   * vertex's logical id does not cast, and flushes the node afterwards.
   */
  function Copy(g: Graph, n: Node, v: VertexId): (r: Outcome<NodeWrite>)
    requires v in g.vertices
    ensures r.Thrown? <==> !MergeCastsOk(g.vertices[v], n)
    ensures r.Thrown? ==> r.fault == BadCast && r.state == g
    // only vertex `v` changes, and it changes to the merge
    ensures r.Done? ==>
              && r.value.graph.vertices == g.vertices[v := MergeProps(g.vertices[v], n)]
              && r.value.graph.edges == g.edges
              && r.value.graph.next == g.next
    // on `v`, every copied key holds the node's value and the virtual flag is the vertex's own
    ensures r.Done? ==>
              && (forall k | Copies(g.vertices[v], n, k) :: Get(r.value.graph.vertices[v], k) == n.props[k])
              && Get(r.value.graph.vertices[v], VirtualKey) == Get(g.vertices[v], VirtualKey)
    // the node keeps its identity and properties, and is no longer dirty
    ensures r.Done? ==>
              && r.value.node == Flushed(n)
              && r.value.node.stringId == n.stringId && r.value.node.props == n.props
              && !r.value.node.dirty
  {
    if !MergeCastsOk(g.vertices[v], n) then Thrown(BadCast, g)
    else Done(NodeWrite(SetProps(g, v, MergeProps(g.vertices[v], n)), Flushed(n)))
  }

  /** Copying the same node twice leaves the vertex as copying it once did. */
  lemma MergeIdempotent(p: Props, n: Node)
    ensures MergeProps(MergeProps(p, n), n) == MergeProps(p, n)
  {
    var q := MergeProps(p, n);
    var q2 := MergeProps(q, n);
    assert ProtectsLogicalId(p, n) ==> ProtectsLogicalId(q, n);
    forall k | k in q2
      ensures k in q && q2[k] == q[k]
    {
      if Copies(q, n, k) {
        assert Copies(p, n, k);
      }
    }
    assert q2.Keys == q.Keys;
  }

  /** The node's flags and the vertex's casts are unchanged by a merge, so a second copy casts as the first did. */
  lemma MergeKeepsCasts(p: Props, n: Node)
    requires MergeCastsOk(p, n)
    requires TextOrNull(Get(n.props, LogicalIdKey))
    ensures MergeCastsOk(MergeProps(p, n), n)
  {
  }
}

=== FILE: scenarios.dfy ===
/**
 * Properties of sequences of builder calls: repeating a call, undoing one,
 * and what any run of calls keeps.
 */
module Scenarios {
  import opened Wrappers
  import opened PropertyGraph
  import opened Dictionary
  import opened Metaverse
  import opened Identity
  import opened PropertyMerge
  import opened Taxonomy
  import opened Frames
  import opened Links
  import opened Nodes
  import opened Unlink

  /**
   * Adding a node a second time changes nothing, when the node has a string
   * id, its vertex was keyed by it (or new), and its logical-id property
   * casts.
   */
  method RepeatAddNode(g: Graph, isEntityType: string -> bool, node: Option<Node>)
    returns (first: Outcome<Written>, second: Outcome<Written>)
    requires Valid(g)
    ensures first.Done? && node.Some? && node.value.stringId.Some?
              && (Given(node.value.stringId.value) in g.vertices || !Resolvable(g, node))
              && TextOrNull(Get(node.value.props, LogicalIdKey)) ==>
              second == Done(Written(first.value.graph, Given(node.value.stringId.value), Flushed(node.value)))
  {
    first := AddNode(g, isEntityType, node);
    if first.Done? {
      second := AddNode(first.value.graph, isEntityType, node);
    } else {
      second := first;
    }
  }

  /** The edge id ignores the relation, so a settled link is settled under any relation. */
  lemma SettledUnderAnyRelation(g: Graph, l: Link, other: string)
    requires LinkSettled(g, l)
    ensures LinkSettled(g, l.(relation := other))
  {
    var s, t := Given(l.from.value.stringId.value), Given(l.to.value.stringId.value);
    assert EdgeKey(g, s, other, t) == EdgeKey(g, s, l.relation, t);
  }

  /**
   * Adding a link and then the same link again, under the same or any other
   * relation, leaves the graph as the first call left it: the second
   * relation is dropped.
   */
  method RepeatAddLink(g: Graph, isEntityType: string -> bool, l: Link, other: string)
    returns (first: Outcome<LinkWrite>, second: Outcome<LinkWrite>)
    requires Valid(g)
    ensures first.Done? && EndByIdOrNew(g, l.from) && EndByIdOrNew(g, l.to)
              && l.from.value.stringId != l.to.value.stringId ==>
              && second.Done?
              && second.value.graph == first.value.graph
              && second.value.source == first.value.source
              && second.value.target == first.value.target
  {
    first := AddLink(g, isEntityType, Some(l));
    if first.Done? {
      if EndByIdOrNew(g, l.from) && EndByIdOrNew(g, l.to) && l.from.value.stringId != l.to.value.stringId {
        SettledUnderAnyRelation(first.value.graph, l, other);
      }
      second := AddLink(first.value.graph, isEntityType, Some(l.(relation := other)));
    } else {
      second := first;
    }
  }

  /** A node whose string id names no vertex cannot be linked to itself: the second end is refused. */
  method SelfLinkOnNewNode(g: Graph, isEntityType: string -> bool, n: Node, relation: string) returns (r: Outcome<LinkWrite>)
    requires Valid(g)
    requires n.stringId.Some? && !Resolvable(g, Some(n))
    ensures r.Thrown?
  {
    r := AddLink(g, isEntityType, Some(Link(Some(n), relation, Some(n))));
  }

  /**
   * On a vertex keyed by the node's string id and already real, `updateNode`
   * writes what `addNode` writes.
   */
  method UpdateAgreesWithAdd(g: Graph, isEntityType: string -> bool, node: Option<Node>)
    returns (added: Outcome<Written>, updated: Outcome<Option<Written>>)
    requires Valid(g)
    requires node.Some? && node.value.stringId.Some? && Given(node.value.stringId.value) in g.vertices
    requires IsReal(g.vertices[Given(node.value.stringId.value)])
    ensures added.Done? && updated.Done? ==> updated.value.Some? && updated.value.value.graph == added.value.graph
  {
    var v := Given(node.value.stringId.value);
    assert NodeBase(g, v) == g.vertices[v];
    added := AddNode(g, isEntityType, node);
    updated := UpdateNode(g, node);
  }

  /** With every edge joining two vertices, removing a vertex `g` lacks keeps every edge. */
  lemma RemoveAbsentKeepsEdges(g: Graph, h: Graph, v: VertexId)
    requires Joined(g) && v !in g.vertices
    requires KeepsEdges(g, h) && (forall e | e in h.edges :: e in g.edges)
    ensures RemoveVertex(h, v).edges == g.edges
  {
  }

  /**
   * Adding a node that is new, not of an entity type and has a string id,
   * and then deleting it, gives back the graph it started from.
   */
  method AddThenDeleteNode(g: Graph, isEntityType: string -> bool, node: Option<Node>)
    returns (added: Outcome<Written>, h: Graph)
    requires Valid(g) && Joined(g)
    requires node.Some? && node.value.stringId.Some? && !Resolvable(g, node) && !isEntityType(node.value.nodeType)
    ensures added.Done? ==> h == g
  {
    added := AddNode(g, isEntityType, node);
    if added.Thrown? {
      return added, g;
    }
    var h1 := added.value.graph;
    var v := added.value.vertex;
    h := DeleteNode(h1, node);
    assert h == RemoveVertex(h1, v);
    assert h.vertices == g.vertices;
    RemoveAbsentKeepsEdges(g, h1, v);
  }

  /** Removing a vertex no edge touches removes nothing else. */
  lemma RemoveUntouched(h: Graph, v: VertexId)
    requires forall e | e in h.edges :: h.edges[e].source != v && h.edges[e].target != v
    ensures RemoveVertex(h, v) == h.(vertices := h.vertices - {v})
  {
    assert RemoveVertex(h, v).edges == h.edges;
  }

  /**
   * Scanning from a new vertex `s` whose only out-edge is the link's, under
   * id `k`, finds that edge.
   */
  lemma FreshLinkScan(g: Graph, h: Graph, l: Link, s: VertexId, t: VertexId, k: EdgeId, sc: Scan)
    requires Joined(g) && s !in g.vertices
    requires l.to.Some? && l.to.value.stringId.Some? && t == Given(l.to.value.stringId.value)
    requires h.edges == g.edges[k := LinkEdge(s, l.relation, t)]
    requires Scanned(h, s, l.relation, l.to, sc)
    ensures sc == Scan(Some(k), Some(t))
  {
    assert OutEdge(h, s, l.relation, k) && Hit(h, k, l.to);
  }

  /**
   * Removing the edge `k` and the two virtual vertices that adding a link
   * put into `g` gives `g` back.
   */
  lemma UnlinkFreshLink(g: Graph, h: Graph, relation: string, s: VertexId, t: VertexId, k: EdgeId, ps: Props, pt: Props)
    requires Joined(g)
    requires s !in g.vertices && t !in g.vertices && s != t && k !in g.edges
    requires h.vertices == g.vertices[s := ps][t := pt]
    requires Get(ps, VirtualKey) == Bool(true) && Get(pt, VirtualKey) == Bool(true)
    requires h.edges == g.edges[k := LinkEdge(s, relation, t)] && h.next == g.next
    ensures Finish(h, s, Scan(Some(k), Some(t)), true) == Done(Unlinked(g, true))
  {
    var g1 := RemoveEdge(h, k);
    assert g1.edges == g.edges;
    RemoveUntouched(g1, s);
    var g2 := RemoveVertex(g1, s);
    assert g2.vertices == g.vertices[t := pt];
    RemoveUntouched(g2, t);
    assert RemoveVertex(g2, t).vertices == g.vertices;
  }

  /** The edge id of the link written in `w` names no edge of `g`. */
  predicate FreshEdgeId(g: Graph, w: LinkWrite, relation: string) {
    && w.source in w.graph.vertices && w.target in w.graph.vertices
    && EdgeKey(w.graph, w.source, relation, w.target).Some?
    && Keyed(EdgeKey(w.graph, w.source, relation, w.target).value) !in g.edges
  }

  /**
   * Adding a link between two new nodes that are not of an entity type and
   * then deleting it gives back the graph it started from, when the link's
   * edge id was not already taken.
   */
  method AddThenDeleteLink(g: Graph, isEntityType: string -> bool, l: Link)
    returns (added: Outcome<LinkWrite>, deleted: Outcome<Graph>)
    requires Valid(g) && Joined(g)
    requires PlainNewEnds(g, isEntityType, l)
    ensures added.Done? && FreshEdgeId(g, added.value, l.relation) ==> deleted == Done(g)
  {
    added := AddLink(g, isEntityType, Some(l));
    if added.Thrown? {
      return added, Done(added.state);
    }
    var w := added.value;
    var h, s, t := w.graph, w.source, w.target;
    deleted := DeleteLink(h, Some(l));
    if FreshEdgeId(g, w, l.relation) {
      var k := Keyed(EdgeKey(h, s, l.relation, t).value);
      assert s == Given(l.from.value.stringId.value) && s != t;
      assert Candidate(h, l.from, s);
      UnlinkFreshLink(g, h, l.relation, s, t, k, MergeProps(VirtualMark, l.from.value), MergeProps(VirtualMark, l.to.value));
      forall v, u | Candidate(h, l.from, v) && Unlinks(h, v, l, true, u)
        ensures u == Done(Unlinked(g, true))
      {
        var sc :| Scanned(h, s, l.relation, l.to, sc) && u == Finish(h, s, sc, true);
        FreshLinkScan(g, h, l, s, t, k, sc);
      }
    }
  }

  /** The only edge of `h` leaving a vertex `g` lacks is the one `h` added. */
  lemma OnlyNewEdgeLeaves(g: Graph, h: Graph, s: VertexId, k: EdgeId, edge: Edge, e: EdgeId)
    requires Joined(g) && s !in g.vertices
    requires h.edges == g.edges[k := edge]
    requires e in h.edges && h.edges[e].source == s
    ensures e == k
  {
  }

  /** What a completed `addLink` says of its two ends. */
  lemma AddedEnds(g: Graph, l: Link, w: LinkWrite)
    requires LinkAdded(g, l, w)
    ensures EndPlaced(g, w.graph, l.from, w.source) && EndPlaced(g, w.graph, l.to, w.target)
    ensures EndsMerged(g, w.graph, l, w.source, w.target)
  {
  }

  /**
   * Relabelling the link that adding it put into `g` — new ends, edge `k` —
   * leaves `g`'s edges with the link's edge, under the same id `k`, carrying
   * the new relation.
   */
  lemma RelabelFreshLink(g: Graph, h: Graph, l: Link, newRelation: string, s: VertexId, t: VertexId, k: EdgeId, w: LinkWrite)
    requires s != t && k !in g.edges
    requires l.from.Some? && l.from.value.stringId.Some? && s == Given(l.from.value.stringId.value)
    requires l.to.Some? && l.to.value.stringId.Some? && t == Given(l.to.value.stringId.value)
    requires h.vertices == g.vertices[s := MergeProps(VirtualMark, l.from.value)][t := MergeProps(VirtualMark, l.to.value)]
    requires h.edges == g.edges[k := LinkEdge(s, l.relation, t)]
    requires EdgeKey(h, s, l.relation, t).Some? && k == Keyed(EdgeKey(h, s, l.relation, t).value)
    requires var g1 := RemoveEdge(h, k);
             && EndPlaced(g1, w.graph, l.from, w.source) && EndPlaced(g1, w.graph, l.to, w.target)
             && EndsMerged(g1, w.graph, l.(relation := newRelation), w.source, w.target)
             && EdgeAdded(g1, w.graph, Keyed(EdgeKey(w.graph, w.source, newRelation, w.target).value),
                          LinkEdge(w.source, newRelation, w.target))
    ensures w.graph.edges == g.edges[k := LinkEdge(s, newRelation, t)]
  {
    var g1 := RemoveEdge(h, k);
    assert g1.edges == g.edges;
    assert Candidate(g1, l.from, s) && Candidate(g1, l.to, t);
    assert w.source == s && w.target == t;
    MergeIdempotent(VirtualMark, l.from.value);
    MergeIdempotent(VirtualMark, l.to.value);
    assert w.graph.vertices[s] == h.vertices[s] && w.graph.vertices[t] == h.vertices[t];
    assert EdgeKey(w.graph, s, newRelation, t) == EdgeKey(h, s, l.relation, t);
  }

  /**
   * Gives a new relation to the link whose new ends `s`, `t` and edge `k`
   * turned `g` into `h`: both ends are settled, so the relabel completes, and
   * the edge under `k` then carries the new relation.
   */
  method RelabelNewLink(g: Graph, h: Graph, isEntityType: string -> bool, l: Link, newRelation: string, s: VertexId, t: VertexId, k: EdgeId)
    returns (relabelled: Outcome<Option<LinkWrite>>)
    requires Valid(h) && Joined(g)
    requires s !in g.vertices && t !in g.vertices && s != t && k !in g.edges
    requires l.from.Some? && l.from.value.stringId.Some? && s == Given(l.from.value.stringId.value)
    requires l.to.Some? && l.to.value.stringId.Some? && t == Given(l.to.value.stringId.value)
    requires h.vertices == g.vertices[s := MergeProps(VirtualMark, l.from.value)][t := MergeProps(VirtualMark, l.to.value)]
    requires h.edges == g.edges[k := LinkEdge(s, l.relation, t)]
    requires EdgeKey(h, s, l.relation, t).Some? && k == Keyed(EdgeKey(h, s, l.relation, t).value)
    requires MergeCastsOk(VirtualMark, l.from.value) && MergeCastsOk(VirtualMark, l.to.value)
    ensures relabelled.Done?
    ensures relabelled.Done? ==>
              && relabelled.value.Some?
              && relabelled.value.value.graph.edges == g.edges[k := LinkEdge(s, newRelation, t)]
  {
    assert Joined(h);
    assert OutEdge(h, s, l.relation, k) && Hit(h, k, l.to);
    MergeIdempotent(VirtualMark, l.from.value);
    MergeIdempotent(VirtualMark, l.to.value);
    assert EndSettled(h, l.from) && EndSettled(h, l.to);
    relabelled := UpdateLinkLabel(h, isEntityType, Some(l), Some(newRelation));
    if relabelled.Done? {
      assert relabelled.value.Some?;
      var w := relabelled.value.value;
      var e :| && e in h.edges
               && Hit(h, e, l.to)
               && Candidate(h, l.from, h.edges[e].source)
               && h.edges[e].relation == l.relation
               && LinkAdded(RemoveEdge(h, e), l.(relation := newRelation), w)
               && EdgeAdded(RemoveEdge(h, e), w.graph, Keyed(EdgeKey(w.graph, w.source, newRelation, w.target).value),
                            LinkEdge(w.source, newRelation, w.target));
      OnlyNewEdgeLeaves(g, h, s, k, LinkEdge(s, l.relation, t), e);
      AddedEnds(RemoveEdge(h, e), l.(relation := newRelation), w);
      RelabelFreshLink(g, h, l, newRelation, s, t, k, w);
    }
  }

  /**
   * Adding a link between two new nodes that are not of an entity type and
   * then giving it a new relation replaces the link's edge, under the same
   * id, by one carrying the new relation, when the link's edge id was not
   * already taken.
   */
  method AddThenRelabel(g: Graph, isEntityType: string -> bool, l: Link, newRelation: string)
    returns (added: Outcome<LinkWrite>, relabelled: Outcome<Option<LinkWrite>>)
    requires Valid(g) && Joined(g)
    requires PlainNewEnds(g, isEntityType, l)
    ensures added.Done? && FreshEdgeId(g, added.value, l.relation) ==> relabelled.Done?
    ensures added.Done? && FreshEdgeId(g, added.value, l.relation) ==>
              var w := added.value;
              var k := Keyed(EdgeKey(w.graph, w.source, l.relation, w.target).value);
              && relabelled.value.Some?
              && relabelled.value.value.graph.edges == g.edges[k := LinkEdge(w.source, newRelation, w.target)]
  {
    added := AddLink(g, isEntityType, Some(l));
    if added.Thrown? {
      return added, Thrown(added.fault, added.state);
    }
    var w := added.value;
    var h, s, t := w.graph, w.source, w.target;
    if FreshEdgeId(g, w, l.relation) {
      var k := Keyed(EdgeKey(h, s, l.relation, t).value);
      assert s == Given(l.from.value.stringId.value) && t == Given(l.to.value.stringId.value) && s != t;
      relabelled := RelabelNewLink(g, h, isEntityType, l, newRelation, s, t, k);
    } else {
      relabelled := UpdateLinkLabel(h, isEntityType, Some(l), Some(newRelation));
    }
  }

  /** A builder call, with its arguments. */
  datatype Call =
    | AddNodeCall(node: Option<Node>)
    | UpdateNodeCall(node: Option<Node>)
    | DeleteNodeCall(node: Option<Node>)
    | AddLinkCall(link: Option<Link>)
    | DeleteLinkCall(link: Option<Link>)
    | UpdateLinkLabelCall(link: Option<Link>, relation: Option<string>)

  /** Only virtual vertices are removed by a shrink, so real ones stay real. */
  lemma ShrinksKeepsReal(g: Graph, h: Graph)
    requires Shrinks(g, h)
    ensures RealKept(g, h)
  {
  }

  /** Makes one builder call; a call that throws leaves the graph as it stood at the throw. */
  method Apply(g: Graph, isEntityType: string -> bool, c: Call) returns (r: Outcome<Graph>)
    requires Valid(g)
    ensures r.Done? ==> Valid(r.value) && (!c.DeleteNodeCall? ==> RealKept(g, r.value))
    ensures r.Thrown? ==> Valid(r.state) && (!c.DeleteNodeCall? ==> RealKept(g, r.state))
  {
    match c
    case AddNodeCall(node) =>
      var a := AddNode(g, isEntityType, node);
      r := if a.Done? then Done(a.value.graph) else Thrown(a.fault, a.state);
    case UpdateNodeCall(node) =>
      var u := UpdateNode(g, node);
      if u.Done? && u.value.Some? {
        assert forall x | x in u.value.value.graph.vertices :: x in g.vertices;
        r := Done(u.value.value.graph);
      } else {
        r := if u.Done? then Done(g) else Thrown(u.fault, u.state);
      }
    case DeleteNodeCall(node) =>
      var h := DeleteNode(g, node);
      r := Done(h);
    case AddLinkCall(link) =>
      var a := AddLink(g, isEntityType, link);
      if a.Done? {
        GrowsKeepsReal(g, a.value.graph);
        r := Done(a.value.graph);
      } else {
        GrowsKeepsReal(g, a.state);
        r := Thrown(a.fault, a.state);
      }
    case DeleteLinkCall(link) =>
      r := DeleteLink(g, link);
      if r.Done? {
        ShrinksKeepsReal(g, r.value);
      } else {
        ShrinksKeepsReal(g, r.state);
      }
    case UpdateLinkLabelCall(link, relation) =>
      var u := UpdateLinkLabel(g, isEntityType, link, relation);
      if u.Done? && u.value.Some? {
        r := Done(u.value.value.graph);
      } else {
        r := if u.Done? then Done(g) else Thrown(u.fault, u.state);
      }
  }

  /**
   * Makes the calls in turn, stopping at the first that throws.  The store
   * stays well formed throughout, and, as long as no node is deleted, a
   * vertex once real stays in the graph and stays real.
   */
  method Session(g: Graph, isEntityType: string -> bool, calls: seq<Call>) returns (h: Graph, fault: Option<Fault>)
    requires Valid(g)
    ensures Valid(h)
    ensures (forall i | 0 <= i < |calls| :: !calls[i].DeleteNodeCall?) ==> RealKept(g, h)
  {
    h, fault := g, None;
    var i := 0;
    while i < |calls|
      invariant 0 <= i <= |calls|
      invariant Valid(h)
      invariant (forall j | 0 <= j < i :: !calls[j].DeleteNodeCall?) ==> RealKept(g, h)
    {
      var r := Apply(h, isEntityType, calls[i]);
      if r.Thrown? {
        if forall j | 0 <= j <= i :: !calls[j].DeleteNodeCall? {
          RealKeptTrans(g, h, r.state);
        }
        return r.state, Some(r.fault);
      }
      if forall j | 0 <= j <= i :: !calls[j].DeleteNodeCall? {
        RealKeptTrans(g, h, r.value);
      }
      h := r.value;
      i := i + 1;
    }
  }
}

=== FILE: taxonomy.dfy ===
/**
 * Edge identity, idempotent edge creation, and the entity-type taxonomy that
 * hangs every entity-typed vertex under a single root.
 */
module Taxonomy {
  import opened Wrappers
  import opened PropertyGraph
  import opened Dictionary
  import opened Metaverse
  import opened PropertyMerge

  // ---- edge identity ----------------------------------------------------

  /**
   * What one endpoint contributes to an edge id: its logical id if it has
   * one, else the text of its vertex id; nothing when the logical id is not
   * a string (the Java cast fails).
   */
  function KeyPart(p: Props, v: VertexId): Option<string> {
    match Get(p, LogicalIdKey)
    case Null => Some(IdText(v))
    case Str(s) => Some(s)
    case _ => None
  }

  /**
   * The id of the edge from `source` to `target`.  The relation is accepted
   * but takes no part in it.
   */
  function EdgeKey(g: Graph, source: VertexId, relation: string, target: VertexId): (r: Option<string>)
    requires source in g.vertices && target in g.vertices
    ensures r.Some? <==>
              TextOrNull(Get(g.vertices[source], LogicalIdKey)) && TextOrNull(Get(g.vertices[target], LogicalIdKey))
    // the id is the source's part, the separator, and the target's part
    ensures r.Some? ==>
              r.value == KeyPart(g.vertices[source], source).value + Separator + KeyPart(g.vertices[target], target).value
  {
    var a := KeyPart(g.vertices[source], source);
    var b := KeyPart(g.vertices[target], target);
    if a.Some? && b.Some? then Some(a.value + Separator + b.value) else None
  }

  /** The edge the builder stores for a link: the relation, also as its `text` property. */
  function LinkEdge(source: VertexId, relation: string, target: VertexId): Edge {
    Edge(source, target, relation, map[TextKey := Str(relation)])
  }

  /**
   * Adds the edge from `source` to `target` unless an edge with its id is
   * already stored, in which case nothing changes.
   */
  function VertexLink(g: Graph, source: VertexId, relation: string, target: VertexId): (r: Outcome<Graph>)
    requires Valid(g) && source in g.vertices && target in g.vertices
    ensures r.Thrown? <==> EdgeKey(g, source, relation, target).None?
    ensures r.Thrown? ==> r.fault == BadCast && r.state == g
    ensures r.Done? ==>
              var k := Keyed(EdgeKey(g, source, relation, target).value);
              && r.value.vertices == g.vertices
              && r.value.next == g.next
              && Extends(g, r.value)
              && Valid(r.value)
              && k in r.value.edges
              && (k in g.edges ==> r.value == g)
              && (k !in g.edges ==> r.value.edges == g.edges[k := LinkEdge(source, relation, target)])
  {
    var key :- match EdgeKey(g, source, relation, target)
               case Some(k) => Done(k)
               case None => Thrown(BadCast, g);
    if Keyed(key) in g.edges then Done(g)
    else Done(PutEdge(g, key, LinkEdge(source, relation, target)))
  }

  /** The edge id ignores the relation: a second relation between the same pair is dropped. */
  lemma SecondRelationDropped(g: Graph, source: VertexId, target: VertexId, first: string, second: string, g1: Graph)
    requires Valid(g) && source in g.vertices && target in g.vertices
    requires VertexLink(g, source, first, target) == Done(g1)
    ensures VertexLink(g1, source, second, target) == Done(g1)
  {
    assert EdgeKey(g1, source, second, target) == EdgeKey(g, source, first, target);
  }

  // ---- the taxonomy -----------------------------------------------------

  /** Every vertex `h` holds beyond those of `g`, except the `spared` ones, carries no virtual flag. */
  predicate FreshUnflagged(g: Graph, h: Graph, spared: set<VertexId>) {
    forall u | u in h.vertices && u !in g.vertices && u !in spared :: Get(h.vertices[u], VirtualKey) == Null
  }

  /** A graph that gained at most vertices `a` and `b`, both unflagged when new, gained no flagged vertex. */
  lemma FreshPairUnflagged(g: Graph, h: Graph, a: VertexId, b: VertexId)
    requires h.vertices.Keys == g.vertices.Keys + {a, b}
    requires Get(h.vertices[a], VirtualKey) == Null
    requires b !in g.vertices ==> Get(h.vertices[b], VirtualKey) == Null
    ensures FreshUnflagged(g, h, {})
  {
  }

  /** Adding vertex `v` and then only unflagged vertices adds no flagged vertex but `v`. */
  lemma FreshAfterOne(g: Graph, p: Graph, h: Graph, v: VertexId)
    requires p.vertices.Keys == g.vertices.Keys + {v}
    requires FreshUnflagged(p, h, {})
    ensures FreshUnflagged(g, h, {v})
  {
  }

  const RootDescription :=
    "Data lineage is tracing the path that data has traveled upstream from its destination, through Pentaho "
    + "systems and artifacts as well as external systems and artifacts."

  /** The fixed properties of the root entity. */
  const RootProps: Props :=
    map[TypeKey := Str(RootEntityNodeType), NameKey := Str("METAVERSE"),
        "division" := Str("Engineering"), "project" := Str("Pentaho Data Lineage"),
        "description" := Str(RootDescription)]

  /** The root's properties carry neither a virtual flag nor a logical id. */
  lemma RootPropsUnflagged()
    ensures Get(RootProps, VirtualKey) == Null && Get(RootProps, LogicalIdKey) == Null
  {
  }

  /** The vertex of the entity type for node type `t`. */
  function EntityTypeVertex(t: string): VertexId {
    Given(EntityPrefix + t)
  }

  /**
   * The properties a new entity type gets: type `Entity`, name `t`, and a
   * description only for transformations and jobs.
   */
  function EntityTypeProps(t: string): (p: Props)
    ensures Get(p, TypeKey) == Str(EntityNodeType) && Get(p, NameKey) == Str(t)
    ensures DescriptionKey in p <==> t == TransNodeType || t == JobNodeType
    ensures DescriptionKey in p ==> p[DescriptionKey] == Str(PdiDescription)
    ensures Get(p, VirtualKey) == Null && Get(p, LogicalIdKey) == Null
  {
    var p := map[TypeKey := Str(EntityNodeType), NameKey := Str(t)];
    if t == TransNodeType || t == JobNodeType then p[DescriptionKey := Str(PdiDescription)] else p
  }

  /** Creates the root entity under its fixed id, with its fixed properties. */
  function CreateRootEntity(g: Graph): (g': Graph)
    requires Valid(g) && Given(RootEntityId) !in g.vertices
    ensures g'.vertices == g.vertices[Given(RootEntityId) := RootProps]
    ensures g'.edges == g.edges && g'.next == g.next && Valid(g')
  {
    SetProps(InsertVertex(g, Given(RootEntityId)), Given(RootEntityId), RootProps)
  }

  /** Creates the vertex of a not yet seen entity type. */
  function NewEntityType(g: Graph, t: string): (g': Graph)
    requires Valid(g) && EntityTypeVertex(t) !in g.vertices
    ensures g'.vertices == g.vertices[EntityTypeVertex(t) := EntityTypeProps(t)]
    ensures g'.edges == g.edges && g'.next == g.next && Valid(g')
  {
    SetProps(InsertVertex(g, EntityTypeVertex(t)), EntityTypeVertex(t), EntityTypeProps(t))
  }

  /** No entity type's vertex is the root's. */
  lemma EntityTypeIsNotRoot(t: string)
    ensures EntityTypeVertex(t) != Given(RootEntityId)
  {
    assert |EntityPrefix + t| > |RootEntityId|;
  }

  /** The graph with the root entity present, created if it was missing. */
  function EnsureRoot(g: Graph): (h: Graph)
    requires Valid(g)
    ensures Given(RootEntityId) in g.vertices ==> h == g
    ensures Given(RootEntityId) !in g.vertices ==> h.vertices == g.vertices[Given(RootEntityId) := RootProps]
    ensures h.edges == g.edges && h.next == g.next && Valid(h) && Extends(g, h)
    ensures Given(RootEntityId) in h.vertices
    ensures Given(RootEntityId) !in g.vertices ==>
              Get(h.vertices[Given(RootEntityId)], LogicalIdKey) == Null && Get(h.vertices[Given(RootEntityId)], VirtualKey) == Null
  {
    RootPropsUnflagged();
    if Given(RootEntityId) in g.vertices then g else CreateRootEntity(g)
  }

  /**
   * Makes sure the entity type of node type `t` exists.  On first sight it is
   * created with its fixed properties, the root entity is created if it is
   * missing, and the root is linked to the new entity type.  An entity type
   * already present is left exactly as it is, so each is created at most
   * once; the root too is created at most once.
   */
  method AddEntityType(g: Graph, t: string) returns (r: Outcome<Placed>)
    requires Valid(g)
    ensures EntityTypeVertex(t) in g.vertices ==> r == Done(Placed(g, EntityTypeVertex(t)))
    ensures r.Done? ==>
              var h := r.value.graph;
              && r.value.vertex == EntityTypeVertex(t)
              && r.value.vertex in h.vertices
              && Extends(g, h)
              && Valid(h)
              && FreshUnflagged(g, h, {})
    ensures r.Done? && EntityTypeVertex(t) !in g.vertices ==>
              var h := r.value.graph;
              var root := Given(RootEntityId);
              && h.vertices.Keys == g.vertices.Keys + {EntityTypeVertex(t), root}
              && h.vertices[EntityTypeVertex(t)] == EntityTypeProps(t)
              && (root !in g.vertices ==> h.vertices[root] == RootProps)
              && EdgeKey(h, root, ParentConcept, EntityTypeVertex(t)).Some?
              && Keyed(EdgeKey(h, root, ParentConcept, EntityTypeVertex(t)).value) in h.edges
    ensures r.Thrown? ==>
              && r.fault == BadCast
              && EntityTypeVertex(t) !in g.vertices
              && Given(RootEntityId) in g.vertices
              && !TextOrNull(Get(g.vertices[Given(RootEntityId)], LogicalIdKey))
              && Extends(g, r.state)
              && Valid(r.state)
  {
    var et := EntityTypeVertex(t);
    if et in g.vertices {
      return Done(Placed(g, et));
    }
    var root := Given(RootEntityId);
    EntityTypeIsNotRoot(t);
    var g1 := NewEntityType(g, t);
    var g2 := EnsureRoot(g1);
    ExtendsTrans(g, g1, g2);
    assert g2.vertices.Keys == g.vertices.Keys + {et, root};
    assert g2.vertices[et] == EntityTypeProps(t);
    var e := VertexLink(g2, root, ParentConcept, et);
    if e.Thrown? {
      return Thrown(e.fault, e.state);
    }
    var h := e.value;
    ExtendsTrans(g, g2, h);
    FreshPairUnflagged(g, h, et, root);
    return Done(Placed(h, et));
  }

  /**
   * Hangs vertex `v` under the entity type of node type `t`, creating the
   * entity type first if need be, by a new anonymous edge each time.
   */
  method AttachToEntityType(g: Graph, v: VertexId, t: string) returns (r: Outcome<Graph>)
    requires Valid(g) && v in g.vertices
    ensures r.Done? ==>
              var h := r.value;
              && Extends(g, h)
              && Valid(h)
              && FreshUnflagged(g, h, {})
              && EntityTypeVertex(t) in h.vertices
              && exists e :: e in h.edges && e !in g.edges && h.edges[e] == Edge(EntityTypeVertex(t), v, ParentConcept, map[])
    ensures r.Thrown? ==>
              && r.fault == BadCast
              && Given(RootEntityId) in g.vertices
              && !TextOrNull(Get(g.vertices[Given(RootEntityId)], LogicalIdKey))
              && Extends(g, r.state)
              && Valid(r.state)
  {
    var et :- AddEntityType(g, t);
    var h := AddAnonymousEdge(et.graph, et.vertex, v, ParentConcept);
    assert Extends(et.graph, h);
    ExtendsTrans(g, et.graph, h);
    assert h.edges[Anonymous(et.graph.next)] == Edge(EntityTypeVertex(t), v, ParentConcept, map[]);
    return Done(h);
  }

  /**
   * Adds the vertex for a node under its string id (or a made-up id when it
   * has none).  A node of an entity type is also linked from its entity type,
   * by an edge of its own each time.
   */
  method PlaceVertex(g: Graph, isEntityType: string -> bool, node: Option<Node>) returns (r: Outcome<Placed>)
    requires Valid(g)
    ensures node.None? ==> r == Thrown(NullReference, g)
    ensures node.Some? && node.value.stringId.Some? && Given(node.value.stringId.value) in g.vertices ==>
              r == Thrown(DuplicateVertex, g)
    ensures r.Done? ==>
              var h := r.value.graph;
              && node.Some?
              && r.value.vertex == NewVertexId(g, node.value.stringId)
              && r.value.vertex !in g.vertices
              && r.value.vertex in h.vertices
              && h.vertices[r.value.vertex] == map[]
              && Extends(g, h)
              && Valid(h)
              && FreshUnflagged(g, h, {r.value.vertex})
    ensures r.Done? && !isEntityType(node.value.nodeType) ==>
              && r.value.graph.vertices == g.vertices[r.value.vertex := map[]]
              && r.value.graph.edges == g.edges
              && (node.value.stringId.Some? ==> r.value.graph.next == g.next)
    ensures r.Done? && isEntityType(node.value.nodeType) ==>
              var h := r.value.graph;
              && EntityTypeVertex(node.value.nodeType) in h.vertices
              && exists e :: e in h.edges && e !in g.edges && h.edges[e] == Edge(EntityTypeVertex(node.value.nodeType), r.value.vertex, ParentConcept, map[])
    ensures r.Thrown? && r.fault == BadCast ==>
              && node.Some?
              && isEntityType(node.value.nodeType)
              && Given(RootEntityId) in g.vertices
              && !TextOrNull(Get(g.vertices[Given(RootEntityId)], LogicalIdKey))
    ensures r.Thrown? && node.Some? && (node.value.stringId.None? || Given(node.value.stringId.value) !in g.vertices) ==>
              r.fault == BadCast
    ensures r.Thrown? ==> Extends(g, r.state) && Valid(r.state)
  {
    if node.None? {
      return Thrown(NullReference, g);
    }
    var p :- AddVertex(g, node.value.stringId);
    assert Extends(g, p.graph);
    if !isEntityType(node.value.nodeType) {
      assert FreshUnflagged(g, p.graph, {p.vertex});
      return Done(p);
    }
    var a := AttachToEntityType(p.graph, p.vertex, node.value.nodeType);
    if a.Thrown? {
      var root := Given(RootEntityId);
      assert Get(p.graph.vertices[p.vertex], LogicalIdKey) == Null;
      assert root != p.vertex && p.graph.vertices[root] == g.vertices[root];
      ExtendsTrans(g, p.graph, a.state);
      return Thrown(a.fault, a.state);
    }
    ExtendsTrans(g, p.graph, a.value);
    FreshAfterOne(g, p.graph, a.value, p.vertex);
    return Done(Placed(a.value, p.vertex));
  }
}

=== FILE: unlink.dfy ===
/**
 * Removing links, and relabelling them by removal and re-adding.
 *
 * The builder finds the edge for a link by scanning the out-edges of the
 * from node's vertex that carry the link's relation, in the store's order,
 * for the first one entering the vertex keyed by the to node's string id.
 * The order is the store's; the model leaves it open.
 */
module Unlink {
  import opened Wrappers
  import opened PropertyGraph
  import opened Dictionary
  import opened Metaverse
  import opened Identity
  import opened PropertyMerge
  import opened Taxonomy
  import opened Frames
  import opened Links

  /** What a scan found: the matching edge, if any, and the target of the last edge looked at, if any. */
  datatype Scan = Scan(matched: Option<EdgeId>, last: Option<VertexId>)

  /** A graph after a link removal, and whether an edge was removed. */
  datatype Unlinked = Unlinked(graph: Graph, removed: bool)

  /** Edge `e` leaves `v` and carries `relation`. */
  predicate OutEdge(g: Graph, v: VertexId, relation: string, e: EdgeId) {
    e in g.edges && g.edges[e].source == v && g.edges[e].relation == relation
  }

  /** Edge `e` enters the vertex whose id is the to node's string id. */
  predicate Hit(g: Graph, e: EdgeId, to: Option<Node>) {
    e in g.edges && to.Some? && to.value.stringId.Some? && g.edges[e].target == Given(to.value.stringId.value)
  }

  predicate HasOutEdge(g: Graph, v: VertexId, relation: string) {
    exists e | e in g.edges :: OutEdge(g, v, relation, e)
  }

  /**
   * `sc` is what a scan of the out-edges of `v` carrying `relation` may end
   * with, in some order: a matching edge and its target; or, when no edge
   * matches, no edge and the target of whichever edge came last (nothing
   * when there was none).
   */
  predicate Scanned(g: Graph, v: VertexId, relation: string, to: Option<Node>, sc: Scan) {
    if sc.matched.Some? then
      && OutEdge(g, v, relation, sc.matched.value)
      && Hit(g, sc.matched.value, to)
      && sc.last == Some(g.edges[sc.matched.value].target)
    else
      && (forall e | e in g.edges && OutEdge(g, v, relation, e) :: !Hit(g, e, to))
      && (sc.last.None? <==> !HasOutEdge(g, v, relation))
      && (sc.last.Some? ==> exists e | e in g.edges :: OutEdge(g, v, relation, e) && g.edges[e].target == sc.last.value)
  }

  /**
   * Scans the out-edges of `v` carrying `relation` in an order of the
   * store's choosing.  Nothing is returned when the to node is null and
   * there is an edge to compare it with (the comparison dereferences it).
   */
  method ScanEdges(g: Graph, v: VertexId, relation: string, to: Option<Node>) returns (r: Option<Scan>)
    ensures r.None? <==> to.None? && HasOutEdge(g, v, relation)
    ensures r.Some? ==> Scanned(g, v, relation, to, r.value)
  {
    var outs := set e | e in g.edges && OutEdge(g, v, relation, e);
    var remaining := outs;
    var last: Option<VertexId> := None;
    while remaining != {}
      invariant remaining <= outs
      invariant forall e | e in outs && e !in remaining :: !Hit(g, e, to)
      invariant last.None? <==> remaining == outs
      invariant to.None? ==> remaining == outs
      invariant last.Some? ==> exists e | e in g.edges :: OutEdge(g, v, relation, e) && g.edges[e].target == last.value
      decreases remaining
    {
      var e :| e in remaining;
      if to.None? {
        assert OutEdge(g, v, relation, e);
        return None;
      }
      if Hit(g, e, to) {
        return Some(Scan(Some(e), Some(g.edges[e].target)));
      }
      last := Some(g.edges[e].target);
      remaining := remaining - {e};
    }
    if HasOutEdge(g, v, relation) {
      var e :| e in g.edges && OutEdge(g, v, relation, e);
      assert e in outs;
    }
    return Some(Scan(None, last));
  }

  /**
   * The virtual flag as the builder reads it: a null vertex, a null flag and
   * an absent flag read as false; nothing when the flag is not a Boolean.
   */
  function IsVirtual(p: Option<Props>): (r: Option<bool>)
    ensures r.None? <==> p.Some? && !FlagOrNull(Get(p.value, VirtualKey))
    ensures r == Some(true) <==> p.Some? && Get(p.value, VirtualKey) == Bool(true)
  {
    if p.None? then Some(false)
    else match Get(p.value, VirtualKey)
         case Null => Some(false)
         case Bool(b) => Some(b)
         case _ => None
  }

  /** The properties of vertex `v`; a vertex the graph lacks reads as having none. */
  function PropsOf(g: Graph, v: VertexId): Props {
    if v in g.vertices then g.vertices[v] else map[]
  }

  /**
   * Removes vertex `v` from `g` if it is virtual, its flag read from `read`
   * (the graph as the call found it).
   */
  function DropIfVirtual(read: Graph, g: Graph, v: Option<VertexId>): (r: Outcome<Graph>)
    ensures r.Thrown? <==> v.Some? && IsVirtual(Some(PropsOf(read, v.value))).None?
    ensures r.Thrown? ==> r.fault == BadCast && r.state == g
    ensures r.Done? && v.Some? && IsVirtual(Some(PropsOf(read, v.value))) == Some(true) ==> r.value == RemoveVertex(g, v.value)
    ensures r.Done? && (v.None? || IsVirtual(Some(PropsOf(read, v.value))) == Some(false)) ==> r.value == g
  {
    if v.None? then Done(g)
    else match IsVirtual(Some(PropsOf(read, v.value)))
         case None => Thrown(BadCast, g)
         case Some(virtual) => if virtual then Done(RemoveVertex(g, v.value)) else Done(g)
  }

  /**
   * The end of a removal once the scan is done: the matching edge is
   * removed, and then, if asked, the from vertex and the last target looked
   * at are each removed when virtual.
   */
  function Finish(g: Graph, from: VertexId, sc: Scan, cascade: bool): Outcome<Unlinked> {
    var g1 := if sc.matched.Some? then RemoveEdge(g, sc.matched.value) else g;
    if !cascade then Done(Unlinked(g1, sc.matched.Some?))
    else
      var g2 :- DropIfVirtual(g, g1, Some(from));
      var g3 :- DropIfVirtual(g, g2, sc.last);
      Done(Unlinked(g3, sc.matched.Some?))
  }

  /**
   * `h` is `g` less some edges and some virtual vertices: no edge or vertex
   * is added or changed, and every vertex removed was flagged virtual.
   */
  predicate Shrinks(g: Graph, h: Graph) {
    && KeepsEdges(h, g)
    && KeepsVertices(h, g)
    && h.next == g.next
    && forall u | u in g.vertices && u !in h.vertices :: Get(g.vertices[u], VirtualKey) == Bool(true)
  }

  /** What `Finish` does, read off its definition. */
  lemma FinishFacts(g: Graph, from: VertexId, sc: Scan, cascade: bool)
    requires from in g.vertices
    ensures var r := Finish(g, from, sc, cascade);
            && (r.Done? ==> r.value.removed == sc.matched.Some? && Shrinks(g, r.value.graph))
            && (r.Done? && sc.matched.Some? ==> sc.matched.value !in r.value.graph.edges)
            && (r.Done? && !cascade ==> r.value.graph.vertices == g.vertices)
            && (r.Done? && cascade && Get(g.vertices[from], VirtualKey) == Bool(true) ==> from !in r.value.graph.vertices)
            && (r.Thrown? ==> r.fault == BadCast && cascade && Shrinks(g, r.state))
            && (Valid(g) && r.Done? ==> Valid(r.value.graph))
            && (Valid(g) && r.Thrown? ==> Valid(r.state))
            && (Joined(g) && r.Done? ==> Joined(r.value.graph))
  {
    var g1 := if sc.matched.Some? then RemoveEdge(g, sc.matched.value) else g;
    assert Shrinks(g, g1);
    if cascade {
      var d2 := DropIfVirtual(g, g1, Some(from));
      if d2.Done? {
        var g2 := d2.value;
        assert Shrinks(g, g2);
        var d3 := DropIfVirtual(g, g2, sc.last);
        if d3.Done? {
          assert Shrinks(g, d3.value);
        }
      }
    }
  }

  /**
   * The removal `r` is what scanning from vertex `v` for link `l` and then
   * finishing may give.
   */
  ghost predicate Unlinks(g: Graph, v: VertexId, l: Link, cascade: bool, r: Outcome<Unlinked>) {
    if l.to.None? && HasOutEdge(g, v, l.relation) then r == Thrown(NullReference, g)
    else exists sc :: Scanned(g, v, l.relation, l.to, sc) && r == Finish(g, v, sc, cascade)
  }

  /**
   * Removes the edge for a link, and, when `cascade` is set, the link's
   * virtual vertices: the from vertex, and the target of the matching edge
   * or of the last edge looked at.
   */
  method RemoveLink(g: Graph, link: Option<Link>, cascade: bool) returns (r: Outcome<Unlinked>)
    ensures link.None? || !Resolvable(g, link.value.from) ==> r == Done(Unlinked(g, false))
    ensures link.Some? && Resolvable(g, link.value.from) ==>
              exists v :: Candidate(g, link.value.from, v) && Unlinks(g, v, link.value, cascade, r)
    ensures r.Done? && link.Some? && Resolvable(g, link.value.from) ==>
              exists v :: && Candidate(g, link.value.from, v)
                          && (r.value.removed <==> exists e | e in g.edges :: OutEdge(g, v, link.value.relation, e) && Hit(g, e, link.value.to))
                          && (cascade && Get(g.vertices[v], VirtualKey) == Bool(true) ==> v !in r.value.graph.vertices)
    ensures r.Done? ==> Shrinks(g, r.value.graph)
    ensures r.Done? && !cascade ==> r.value.graph.vertices == g.vertices
    ensures r.Done? && !r.value.removed && !cascade ==> r.value.graph == g
    ensures r.Thrown? ==> Shrinks(g, r.state)
    ensures r.Thrown? && r.fault == NullReference ==> r.state == g && link.Some? && link.value.to.None?
    ensures r.Thrown? && r.fault != NullReference ==> r.fault == BadCast && cascade
    ensures Valid(g) ==> (r.Done? ==> Valid(r.value.graph)) && (r.Thrown? ==> Valid(r.state))
    ensures Joined(g) && r.Done? ==> Joined(r.value.graph)
  {
    if link.None? {
      return Done(Unlinked(g, false));
    }
    var l := link.value;
    var found := Resolve(g, l.from);
    if found.None? {
      return Done(Unlinked(g, false));
    }
    var v := found.value;
    var sc := ScanEdges(g, v, l.relation, l.to);
    if sc.None? {
      assert Unlinks(g, v, l, cascade, Thrown(NullReference, g));
      return Thrown(NullReference, g);
    }
    r := Finish(g, v, sc.value, cascade);
    FinishFacts(g, v, sc.value, cascade);
    assert Unlinks(g, v, l, cascade, r);
    assert r.Done? ==> (r.value.removed <==> exists e | e in g.edges :: OutEdge(g, v, l.relation, e) && Hit(g, e, l.to));
  }

  /** Removes the edge for a link and the link's virtual vertices. */
  method DeleteLink(g: Graph, link: Option<Link>) returns (r: Outcome<Graph>)
    ensures link.None? || !Resolvable(g, link.value.from) ==> r == Done(g)
    ensures link.Some? && Resolvable(g, link.value.from) ==>
              exists v, u :: && Candidate(g, link.value.from, v)
                             && Unlinks(g, v, link.value, true, u)
                             && r == (if u.Done? then Done(u.value.graph) else Thrown(u.fault, u.state))
    ensures r.Done? ==> Shrinks(g, r.value)
    ensures r.Thrown? ==> Shrinks(g, r.state)
    ensures Valid(g) ==> (r.Done? ==> Valid(r.value)) && (r.Thrown? ==> Valid(r.state))
    ensures Joined(g) && r.Done? ==> Joined(r.value)
  {
    var u := RemoveLink(g, link, true);
    if u.Thrown? {
      return Thrown(u.fault, u.state);
    }
    return Done(u.value.graph);
  }

  /**
   * Gives a link a new relation: when the label is not null and an edge for
   * the link is removed (its vertices are kept), the link takes the new
   * relation and is added again.
   */
  method UpdateLinkLabel(g: Graph, isEntityType: string -> bool, link: Option<Link>, newRelation: Option<string>)
    returns (r: Outcome<Option<LinkWrite>>)
    requires Valid(g)
    ensures newRelation.None? || link.None? || !Resolvable(g, link.value.from) ==> r == Done(None)
    ensures r.Done? && r.value.None? ==>
              || newRelation.None? || link.None? || !Resolvable(g, link.value.from)
              || exists v :: && Candidate(g, link.value.from, v)
                            && forall e | OutEdge(g, v, link.value.relation, e) :: !Hit(g, e, link.value.to)
    ensures r.Done? && r.value.Some? ==>
              var w := r.value.value;
              && newRelation.Some? && link.Some?
              && w.link.relation == newRelation.value
              && (exists e :: && e in g.edges
                              && Hit(g, e, link.value.to)
                              && Candidate(g, link.value.from, g.edges[e].source)
                              && g.edges[e].relation == link.value.relation
                              && LinkAdded(RemoveEdge(g, e), link.value.(relation := newRelation.value), w)
                              && (Joined(g) ==>
                                    EdgeAdded(RemoveEdge(g, e), w.graph,
                                              Keyed(EdgeKey(w.graph, w.source, newRelation.value, w.target).value),
                                              LinkEdge(w.source, newRelation.value, w.target))))
              && Valid(w.graph)
              && RealKept(g, w.graph)
              && (Joined(g) ==> w.graph.vertices.Keys == g.vertices.Keys)
    // a link whose ends are both settled is relabelled without a throw
    ensures newRelation.Some? && link.Some? && EndSettled(g, link.value.from) && EndSettled(g, link.value.to) ==>
              r.Done?
    ensures r.Thrown? ==> Valid(r.state) && RealKept(g, r.state)
  {
    if newRelation.None? || link.None? {
      return Done(None);
    }
    var l := link.value;
    var found := Resolve(g, l.from);
    if found.None? {
      return Done(None);
    }
    var v := found.value;
    var sc := ScanEdges(g, v, l.relation, l.to);
    if sc.None? {
      return Thrown(NullReference, g);
    }
    if sc.value.matched.None? {
      return Done(None);
    }
    var e := sc.value.matched.value;
    var g1 := RemoveEdge(g, e);
    var relabelled := l.(relation := newRelation.value);
    assert EndSettled(g, l.from) && EndSettled(g, l.to) ==> EndSettled(g1, l.from) && EndSettled(g1, l.to);
    var a := AddLink(g1, isEntityType, Some(relabelled));
    if a.Thrown? {
      GrowsKeepsReal(g1, a.state);
      return Thrown(a.fault, a.state);
    }
    assert Candidate(g1, l.from, v);
    GrowsKeepsReal(g1, a.value.graph);
    if Joined(g) {
      assert Given(l.to.value.stringId.value) in g1.vertices;
      assert Resolvable(g1, l.to);
      KeysKeptWhenResolved(g1, relabelled, a.value);
    }
    return Done(Some(a.value));
  }
}

=== FILE: wrappers.dfy ===
/** Optional values: the model's stand-in for Java's nullable references. */
module Wrappers {

  datatype Option<+T> = None | Some(value: T)
}
